=== FILE: README.md ===
# AI Study Bot — a Dafny model of its command loop

The AI Study Bot is a terminal chat loop. Each line the user types is one of:

- `help` or `list`;
- `pdf <file> <question>`, which answers a question from a PDF in the `documents` directory;
- `ask <question>`, which gets a formula from a local language model. Formulas are cached, under their lower-cased query, in `formulas.json`;
- `exit` or `quit`.

This project models that core in Dafny and proves properties of the model:

- the command dispatcher of `main`;
- the formula cache: `validate_and_fix_json`, `init_formulas_db` and `get_formula`;
- the PDF question path, `query_pdf`;
- the directory listing, `list_files`.

Modules, one file each:

- `Text` (`text.dfy`): the Python string operations the loop relies on.
  - `str.isspace`, as a predicate.
  - `str.strip()`.
  - ASCII `str.lower()`.
  - `str.split(maxsplit=k)` as CPython runs it: the last part keeps its inner and trailing whitespace.
  - Proved: split/join round trips, and that splitting and stripping commute with lower-casing.
- `Commands` (`commands.dfy`): the `if`/`elif` chain that turns a line into a `Command`.
- `FormulaStore` (`formula_store.dfy`): covers three things.
  - The store document, modelled as a decoded JSON value.
  - Start-up validation and repair.
  - The cache-or-generate lookup.
- `PdfQuery` (`pdf_query.dfy`): page extraction, the prompt, the error replies, and the `.pdf` filter of the listing.
- `Session` (`session.dfy`): the loop itself, over a sequence of typed lines.

Modelling choices:

- The language model is a function from prompt to response, so it answers the same prompt the same way within a session. GPT4All's sampling is not deterministic. Equalities of replies, such as `LaterPagesIgnored`, hold under this choice.
- A save is modelled by whether the write succeeds.
- The `documents` directory is a map from file name to the page texts, or to the error that opening it raises.
- The store file is modelled by what opening and decoding it yields.
- The `documents` directory, its listing and whether saves succeed are fixed for a session.
- Replies are constructors carrying their payload, in place of the printed decorated strings.

## Model

| member | source | states |
|---|---|---|
| Commands.Classify | main.py:119-155 | A line classifies as `Empty` exactly when it is blank. Every other command a line yields, apart from usage and invalid, carries arguments of the shape a line can spell out. The other branches are stated by the lemmas below. |
| Commands.Dispatch | main.py:121-155 | On a stripped line: `Empty` exactly for the empty line. `Pdf` and `Ask` arguments are well formed. |
| Commands.ClassifyInvalid | main.py:154-155 | A line is invalid exactly when, stripped and lower-cased, it is non-empty, none of `exit`, `quit`, `help`, `list`, and starts with neither `pdf ` nor `ask `. |
| Commands.ClassifyAskOrigin | main.py:144-152 | An `ask` command comes only from a line starting `ask ` and not `pdf `, and its query is the stripped line from its fifth character on. |
| Commands.ClassifyPdfOrigin | main.py:144-149 | A `pdf` command comes only from a line starting `pdf ` that splits into three parts, and its file and question are the second and third part. |
| Commands.ExitExactly | main.py:127-129 | The loop ends on a line exactly when its stripped, lower-cased form is `exit` or `quit`. |
| Commands.ExitAnyCase | main.py:127-129 | `exit` and `quit` typed in any mix of letter case end the loop. |
| Commands.AskAnyCase | main.py:151-152 | `ask <query>`, with the command word in any case, asks for `query` with its own case preserved. |
| Commands.PdfAnyCase | main.py:144-149 | `pdf <file> <question>`, with the command word in any case, queries `file` with the whole rest of the line as the question. |
| Commands.PdfWithoutQuestion | main.py:144-147 | `pdf <file>` with fewer than three words gets the usage message, not a query. |
| Commands.BareVerbIsInvalid | main.py:144-155 | A bare `pdf` or `ask` with no trailing space is an invalid command. |
| Commands.DispatchWord | main.py:127-139 | `exit`, `quit`, `help` and `list` each select their own command. |
| Commands.ClassifyRender | main.py:119-155 | Each well-formed command, written out as a line, reads back as itself: classification inverts rendering. |
| Commands.ClassifyPadded | main.py:120 | Whitespace around a line never changes the command it stands for. |
| Commands.ClassifyLower | main.py:127-152 | Lower-casing a line changes only the arguments of its command, which become lower-cased. Command selection is case-insensitive. |
| Text.IsSpaceExactly | main.py:120 | The whitespace `strip()` here and `split()` at main.py:145 cut is exactly Python's `str.isspace` set of 29 code points: TAB through CR, U+001C through U+001F, space, U+0085, U+00A0, U+1680, U+2000 through U+200A, U+2028, U+2029, U+202F, U+205F and U+3000. |
| Text.Strip | main.py:120 | The result has no whitespace at either end. It is empty exactly when the line is blank. It is a slice of the line with only whitespace cut on either side. |
| Text.StripPadded | main.py:120 | Stripping ignores any whitespace added at either end. |
| Text.StripIdempotent | main.py:120 | Stripping a stripped line changes nothing. |
| Text.Lower | main.py:50 | Same length as the input, each character lower-cased (ASCII letters only). |
| Text.Split | main.py:145 | `split(maxsplit=k)` yields at most `k + 1` parts. The first `k` parts are non-empty words without whitespace. A `k + 1`-th part is a suffix of the input. |
| Text.SplitCoversInput | main.py:145 | The input is exactly its parts with whitespace-only gaps between them. Gaps between two parts are non-empty, and nothing follows a `k + 1`-th part. Any run of whitespace separates words, not only a single space. |
| Text.SplitJoin | main.py:145 | Splitting words joined by single spaces gives back the words, for every well-formed list of parts. |
| Text.SplitLower | main.py:144-145 | Splitting a lower-cased line gives the lower-cased parts of splitting the line. |
| FormulaStore.ValidateAndFix | main.py:21-42 | A decodable object whose `formulas` entry is absent or an object is kept as it stands. An undecodable file, or a non-object `formulas` entry, is reset to the default when the write succeeds. A missing file, or a non-object document, escapes as a crash. |
| FormulaStore.FormulasOf | main.py:47 | `data.get("formulas", {})`: the object stored under `formulas`, or the empty map when the key is absent. |
| FormulaStore.InitFormulasDb | main.py:44-47 | A valid document gives `Ready` with its `formulas` object (empty when the key is absent), the file unchanged. A reset gives an empty cache and a file holding the default document. Start-up crashes exactly when validation does, with the same cause. |
| FormulaStore.SaveDocument | main.py:64-65 | The saved document is valid. Its only top-level key is `formulas`, and that entry is exactly the cache, so other top-level keys are dropped. |
| FormulaStore.SaveThenLoad | main.py:44-47 | What `get_formula` saves is loaded back unchanged, without repair, at the next start-up. |
| FormulaStore.StartupIdempotent | main.py:21-47 | A second start-up on the file the first one left changes nothing and builds the same cache. |
| FormulaStore.GetFormula | main.py:49-70 | Hit (the lower-cased query is cached): the stored entry, with no prompt, no change to the cache and no save. Miss: exactly one prompt, which embeds the query as typed; the response is cached under the lower-cased query; every other entry is kept; the whole cache is saved when the write succeeds. |
| FormulaStore.FormulaPrompt | main.py:59 | The prompt holds the query, as typed, at a fixed position. |
| FormulaStore.FormulaPromptInjective | main.py:59 | Distinct queries give distinct prompts. |
| FormulaStore.HitAfterMiss | main.py:50-62 | After a miss, the same query in any letter case hits the model's answer without another model call. |
| FormulaStore.SaveFailureKeepsEntry | main.py:61-68 | A failed save changes neither the reply nor the in-memory cache: the new entry stays. |
| FormulaStore.GetFormulaKeepsKeysLower | main.py:50-62 | If every cache key is lower case before a lookup, every key is lower case after it. |
| FormulaStore.AskAll | main.py:49-70 | Over a run of lookups, each reply comes from the cache exactly when its lower-cased query was cached at the start or asked earlier in the run. A cached reply carries the entry the final cache holds under that key, a new reply carries the model's answer to that query's own prompt, and entries cached at the start are kept unchanged. |
| FormulaStore.AskAllCallsOncePerNewKey | main.py:49-70 | Over a run of lookups, the model is called once per distinct lower-cased query not already cached. The cache ends with exactly the old keys plus the queried ones. |
| PdfQuery.ExtractText | main.py:83-87 | The enumerate-and-break loop reads exactly the first `min(n, 10)` pages, concatenated in order. |
| PdfQuery.Excerpt | main.py:97 | `text[:10000]`: a prefix of the text of length `min(len, 10000)`. |
| PdfQuery.PdfPrompt | main.py:97 | The prompt carries the excerpt at a fixed position, followed by the question. |
| PdfQuery.QueryPdf | main.py:72-103 | The reply is `not found` exactly when the file is missing, and then no model call is made. The reply is an error exactly when the file exists but opening or reading it fails; it carries the library's message, with no model call. The reply is `empty` exactly when the file opens and its extracted text is blank. An existing, readable file with non-blank text gets an answer. A model call happens exactly when an answer is returned. The one prompt is built from the excerpt of the extracted text and the question. |
| PdfQuery.BlankPagesNeverReachModel | main.py:89-92 | A document whose first ten pages, or all its pages, are blank never reaches the model. |
| PdfQuery.LaterPagesIgnored | main.py:84-86 | Pages after the tenth change neither the reply nor the prompt. |
| PdfQuery.ExcerptWholeWhenShort | main.py:97 | Short text goes into the prompt whole. Longer text is cut to its first 10000 characters. |
| PdfQuery.PdfNames | main.py:108 | Every name kept is a listed name ending in `.pdf`, and every listed name ending in `.pdf` is kept. |
| PdfQuery.ListFiles | main.py:105-113 | A listing that fails gives no files. Every file given ends in `.pdf`. Every listed name ending in `.pdf` is given. A listing that succeeds gives exactly the `.pdf` filter of it, so listing order and repeats are kept (see `PdfNamesAppend`). |
| PdfQuery.PdfNamesMembers | main.py:108 | The filtered list holds exactly the listed names that end in `.pdf`. |
| PdfQuery.PdfNamesAppend | main.py:108 | Filtering a listing split in two filters each half, in order. |
| PdfQuery.PdfNamesIdempotent | main.py:108 | Filtering the filtered list changes nothing. |
| PdfQuery.ConcatAppend | main.py:84-87 | The text of two runs of pages is the text of the first run followed by that of the second. |
| PdfQuery.PageInText | main.py:84-87 | Each page read appears whole in the extracted text, starting right after the text of the pages before it. |
| PdfQuery.ConcatBlank | main.py:87-90 | The extracted text is blank exactly when every page read is blank. |
| Session.Respond | main.py:121-155 | Each command gets the output `Answers` gives it on the current cache. Only `ask` touches the cache, and it changes it as `get_formula` does. After an `ask` that missed, the store file holds the new cache when saves succeed; otherwise the store file is unchanged. |
| Session.FirstAsk | main.py:50-62 | The first query asked under a key exists exactly when the key was asked. It lower-cases to that key, and it is the query of an `ask` with no earlier `ask` under the same key. |
| Session.RunSession | main.py:119-155 | The loop stops at the first `exit`/`quit` line and answers every line before it. Each line gets the output its command determines (`Answers`). An `ask` is answered from the cache exactly when its lower-cased query was in the start-up cache or was asked earlier in the session, in any case; the entry is the start-up one or the model's answer to the first such query. Otherwise it gets the model's answer to its own prompt. The cache ends with the start-up keys plus exactly the keys asked, each holding that remembered entry, and start-up entries never change. Keys stay lower case if they started so. With failing saves the store file is untouched. With working saves it holds the final cache once an `ask` has missed, and is unchanged otherwise. |
| Session.RunCommands | main.py:119-155 | The same loop, over the commands the lines stand for: every answered command has the output `Answers` gives it, and the cache and store invariants hold at the end, including an untouched store file while no `ask` has missed. |
| Session.StepKeepsProgress | main.py:119-155 | One pass of the loop body keeps the loop invariant. |

## Left out

- Language model: loading (and the `exit(1)` when that fails) is not modelled, and generation is an arbitrary function from prompt to response. Generation never fails in the model; an exception from `generate` in `query_pdf` would become an error reply.
- PDF library: opening and text extraction are replaced by a per-file list of page texts, or an error message. An error part-way through the pages yields the same `ProcessingError` as an error on opening.
- JSON: encoding, decoding, `indent`, `ensure_ascii` and UTF-8 are left out. The store file is modelled by what decoding it yields (`StoreFile`). Saved documents are Dafny values.
- File system: `os.path.exists` and `os.path.join` become membership in the `documents` map. Path separators or `..` inside a file name are not interpreted.
- Logging and console output: `logging` calls are left out. The emoji-decorated strings printed for each reply are represented by the `Output`, `FormulaReply` and `PdfReply` constructors.
- The loop, on input: end of input (`EOFError`) and keyboard interrupts are left out; a session simply ends when its lines run out.
- Text.Lower: lower-cases ASCII letters only. Python's `str.lower` also maps non-ASCII letters, sometimes to several characters.
- Session.RunSession: whether a save succeeds is fixed for the whole session, not decided per write.
- FormulaStore.GetFormula: a save that fails after the file was opened for writing can leave the file truncated or partly written. The model treats every failed save as leaving the store file as it was.
- FormulaStore.ValidateAndFix: a failed write of the default document is a crash in the model. The source may also leave the file truncated at that point.
- Behaviour of `main.py` worth noting, modelled as the code has it:
  - A missing `formulas.json` is not recreated: opening it raises an error that is not caught, so start-up crashes.
  - A document that is valid JSON but not an object also crashes start-up, because `data.get` is called on it.
  - A document without a `formulas` key is accepted as it stands, with an empty cache.
  - A save writes only `{"formulas": …}`, dropping any other top-level keys the file held.
  - `pdf` and `ask` with nothing after them are invalid commands, not usage errors.

=== FILE: commands.dfy ===
/**
 The command loop's classification of one input line (the `if`/`elif` chain of
 `main`): the line is stripped, the command words `exit`/`quit`, `help` and
 `list` are matched whole and case-insensitively, and the prefixes `pdf ` and
 `ask ` are recognised in that order.
 */
module Commands {
  import opened Text

  datatype Command =
    | Empty                                 // nothing but whitespace
    | Exit                                  // `exit` or `quit`: the loop ends
    | Help
    | List
    | PdfUsage                              // `pdf ` with fewer than two arguments
    | Pdf(file: string, question: string)
    | Ask(query: string)
    | Invalid                               // anything else, bare `pdf` and `ask` included

  /** The commands a line can spell out exactly; `PdfUsage` and `Invalid` stand for many lines. */
  predicate WellFormed(c: Command) {
    match c
    case PdfUsage => false
    case Invalid => false
    case Pdf(file, question) =>
      file != [] && HasNoSpace(file) && question != [] && IsTrimmed(question)
    case Ask(query) => query != [] && !IsSpace(query[|query| - 1])
    case _ => true
  }

  /** The command one line of input stands for. */
  function Classify(line: string): (c: Command)
    ensures c == Empty <==> IsBlank(line)
    ensures c != PdfUsage && c != Invalid ==> WellFormed(c)
  {
    Dispatch(Strip(line))
  }

  /** The `if`/`elif` chain, applied to the stripped line. */
  function Dispatch(input: string): (c: Command)
    requires IsTrimmed(input)
    ensures c == Empty <==> input == []
    ensures c != PdfUsage && c != Invalid ==> WellFormed(c)
  {
    var lower := Lower(input);
    if input == [] then Empty
    else if lower == "exit" || lower == "quit" then Exit
    else if lower == "help" then Help
    else if lower == "list" then List
    else if StartsWith(lower, "pdf ") then
      var parts := Split(input, 2);
      if |parts| < 3 then PdfUsage
      else
        PdfArgsWellFormed(input);
        Pdf(parts[1], parts[2])
    else if StartsWith(lower, "ask ") then
      AskArgWellFormed(input);
      Ask(input[4..])
    else Invalid
  }

  /** The file and question cut from a stripped line satisfy `WellFormed`. */
  lemma PdfArgsWellFormed(input: string)
    requires IsTrimmed(input) && |Split(input, 2)| == 3
    ensures WellFormed(Pdf(Split(input, 2)[1], Split(input, 2)[2]))
  {
    var parts := Split(input, 2);
    var j :| 0 <= j < |input| && parts[2] == input[j..];
    assert parts[2][|parts[2]| - 1] == input[|input| - 1];
  }

  /** A stripped line whose lower-case form starts with `ask ` leaves a query whose last
      character is the line's own last, non-blank character. */
  lemma AskArgWellFormed(input: string)
    requires IsTrimmed(input) && StartsWith(Lower(input), "ask ")
    ensures |input| > 4 && WellFormed(Ask(input[4..]))
  {
    assert LowerChar(input[3]) == Lower(input)[..4][3] == ' ';
    LowerCharKeepsSpace(input[3]);
  }

  /** The shortest line that classifies as `c`. */
  function Render(c: Command): string
    requires WellFormed(c)
  {
    match c
    case Empty => ""
    case Exit => "exit"
    case Help => "help"
    case List => "list"
    case Pdf(file, question) => "pdf" + " " + file + " " + question
    case Ask(query) => "ask" + " " + query
  }

  /** Lower-case the free text a command carries. */
  function LowerArgs(c: Command): Command {
    match c
    case Pdf(file, question) => Pdf(Lower(file), Lower(question))
    case Ask(query) => Ask(Lower(query))
    case _ => c
  }

  // ---------------------------------------------------------------------------
  // Properties of the classifier

  /** A command word typed in any case has no whitespace in it. */
  lemma VerbShape(verb: string, w: string)
    requires Lower(verb) == w && w != [] && HasNoSpace(w)
    ensures |verb| == |w| && verb != [] && HasNoSpace(verb) && IsTrimmed(verb)
  {
    forall m | 0 <= m < |verb| ensures !IsSpace(verb[m]) { LowerKeepsSpace(verb, m); }
  }

  /** A line `verb + " " + rest` whose verb lower-cases to `w`: its lower-case form, and
      that it is already stripped. */
  lemma CommandLine(verb: string, w: string, rest: string)
    requires Lower(verb) == w && w != [] && HasNoSpace(w)
    requires rest != [] && !IsSpace(rest[|rest| - 1])
    ensures IsTrimmed(verb + " " + rest)
    ensures Lower(verb + " " + rest) == w + " " + Lower(rest)
    ensures (verb + " " + rest)[|w| + 1..] == rest
  {
    var line := verb + " " + rest;
    VerbShape(verb, w);
    assert line[0] == verb[0] && line[|line| - 1] == rest[|rest| - 1];
    LowerAppend(verb + " ", rest);
    LowerAppend(verb, " ");
  }

  /** How `Dispatch` reads a stripped line that starts with `ask `. */
  lemma DispatchAsk(line: string, rest: string)
    requires IsTrimmed(line) && Lower(line) == "ask" + " " + rest
    ensures |line| > 4 && Dispatch(line) == Ask(line[4..])
  {
    var lower := Lower(line);
    assert lower[..4] == "ask ";
    assert lower[0] == 'a';
    AskArgWellFormed(line);
  }

  /** How `Dispatch` reads a stripped line that starts with `pdf `. */
  lemma DispatchPdf(line: string, rest: string)
    requires IsTrimmed(line) && Lower(line) == "pdf" + " " + rest
    ensures |Split(line, 2)| < 3 ==> Dispatch(line) == PdfUsage
    ensures |Split(line, 2)| == 3 ==> Dispatch(line) == Pdf(Split(line, 2)[1], Split(line, 2)[2])
  {
    var lower := Lower(line);
    assert lower[..4] == "pdf ";
    assert |lower| >= 4 && lower[3] == ' ';
  }

  /** `ask <query>`, with the command word in any case, asks for exactly `query`:
      the query keeps its case and any whitespace it starts with. */
  lemma AskAnyCase(verb: string, query: string)
    requires Lower(verb) == "ask"
    requires query != [] && !IsSpace(query[|query| - 1])
    ensures Classify(verb + " " + query) == Ask(query)
  {
    var line := verb + " " + query;
    CommandLine(verb, "ask", query);
    DispatchAsk(line, Lower(query));
    StripTrimmed(line);
  }

  /** The words of `verb + " " + file + " " + question`. */
  lemma PdfLineSplit(verb: string, file: string, question: string)
    requires Lower(verb) == "pdf"
    requires file != [] && HasNoSpace(file)
    requires question != [] && IsTrimmed(question)
    ensures Split(verb + " " + (file + " " + question), 2) == [verb, file, question]
  {
    VerbShape(verb, "pdf");
    var parts := [verb, file, question];
    assert JoinSpace(parts[2..]) == question;
    assert JoinSpace(parts[1..]) == file + " " + question;
    SplitJoin(parts, 2);
  }

  /** `pdf <file> <question>`, with the command word in any case, queries `file`
      with `question`. */
  lemma PdfAnyCase(verb: string, file: string, question: string)
    requires Lower(verb) == "pdf"
    requires file != [] && HasNoSpace(file)
    requires question != [] && IsTrimmed(question)
    ensures Classify(verb + " " + file + " " + question) == Pdf(file, question)
  {
    var rest := file + " " + question;
    var line := verb + " " + rest;
    assert line == verb + " " + file + " " + question;
    CommandLine(verb, "pdf", rest);
    PdfLineSplit(verb, file, question);
    DispatchPdf(line, Lower(rest));
    StripTrimmed(line);
  }

  /** The words of `verb + " " + file`. */
  lemma PdfShortLineSplit(verb: string, file: string)
    requires Lower(verb) == "pdf"
    requires file != [] && HasNoSpace(file)
    ensures Split(verb + " " + file, 2) == [verb, file]
  {
    VerbShape(verb, "pdf");
    var parts := [verb, file];
    assert JoinSpace(parts[1..]) == file;
    SplitJoin(parts, 2);
  }

  /** `pdf <file>` with no question gets the usage message. */
  lemma PdfWithoutQuestion(verb: string, file: string)
    requires Lower(verb) == "pdf"
    requires file != [] && HasNoSpace(file)
    ensures Classify(verb + " " + file) == PdfUsage
  {
    var line := verb + " " + file;
    CommandLine(verb, "pdf", file);
    PdfShortLineSplit(verb, file);
    DispatchPdf(line, Lower(file));
    StripTrimmed(line);
  }

  /** The loop ends exactly on `exit` or `quit`, in any letter case, with any whitespace
      around it. */
  lemma ExitExactly(line: string)
    ensures Classify(line) == Exit <==> Lower(Strip(line)) == "exit" || Lower(Strip(line)) == "quit"
  {
  }

  /** `exit` and `quit` typed in any case end the loop. */
  lemma ExitAnyCase(word: string)
    requires Lower(word) == "exit" || Lower(word) == "quit"
    ensures Classify(word) == Exit
  {
    VerbShape(word, Lower(word));
    StripTrimmed(word);
  }

  /** The command words alone, without an argument, are not commands. */
  lemma BareVerbIsInvalid(line: string)
    requires Lower(Strip(line)) == "pdf" || Lower(Strip(line)) == "ask"
    ensures Classify(line) == Invalid
  {
  }

  /** A line is invalid exactly when, stripped and lower-cased, it is not empty, is none of
      the four command words and starts with neither `pdf ` nor `ask `. */
  lemma ClassifyInvalid(line: string)
    ensures var l := Lower(Strip(line));
      Classify(line) == Invalid <==>
        && l != []
        && l != "exit" && l != "quit" && l != "help" && l != "list"
        && !StartsWith(l, "pdf ") && !StartsWith(l, "ask ")
  {
  }

  /** An `ask` command comes only from a line starting `ask ` (and not `pdf `), and its
      query is the stripped line after those four characters. */
  lemma ClassifyAskOrigin(line: string)
    requires Classify(line).Ask?
    ensures StartsWith(Lower(Strip(line)), "ask ") && !StartsWith(Lower(Strip(line)), "pdf ")
    ensures |Strip(line)| > 4 && Classify(line).query == Strip(line)[4..]
  {
  }

  /** A `pdf` command comes only from a line starting `pdf ` that splits into three parts:
      the command word, the file and the question. */
  lemma ClassifyPdfOrigin(line: string)
    requires Classify(line).Pdf?
    ensures StartsWith(Lower(Strip(line)), "pdf ")
    ensures var parts := Split(Strip(line), 2);
      |parts| == 3 && parts[1] == Classify(line).file && parts[2] == Classify(line).question
  {
  }

  /** A command word with nothing around it. */
  lemma DispatchWord(w: string, c: Command)
    requires (w, c) in {("exit", Exit), ("quit", Exit), ("help", Help), ("list", List)}
    ensures Classify(w) == c
  {
    LowerWord(w);
    StripTrimmed(w);
  }

  /** A word of lower-case ASCII letters is its own lower-case form and needs no strip. */
  lemma LowerWord(w: string)
    requires w != [] && forall i | 0 <= i < |w| :: 'a' <= w[i] <= 'z'
    ensures Lower(w) == w && IsTrimmed(w)
  {
  }

  /** Every command `Render` spells out reads back as itself. */
  lemma ClassifyRender(c: Command)
    requires WellFormed(c)
    ensures Classify(Render(c)) == c
  {
    match c
    case Empty =>
    case Exit => DispatchWord("exit", Exit);
    case Help => DispatchWord("help", Help);
    case List => DispatchWord("list", List);
    case Pdf(file, question) => PdfAnyCase("pdf", file, question);
    case Ask(query) => AskAnyCase("ask", query);
  }

  /** Whitespace around a line never changes what it means. */
  lemma ClassifyPadded(before: string, line: string, after: string)
    requires IsBlank(before) && IsBlank(after)
    ensures Classify(before + line + after) == Classify(line)
  {
    StripPadded(before, line, after);
  }

  /** Case matters only inside the arguments: lower-casing a line lower-cases the
      arguments of its command and changes nothing else. */
  lemma ClassifyLower(line: string)
    ensures Classify(Lower(line)) == LowerArgs(Classify(line))
  {
    var input := Strip(line);
    StripLower(line);
    DispatchLower(input);
  }

  lemma DispatchLower(input: string)
    requires IsTrimmed(input)
    ensures IsTrimmed(Lower(input))
    ensures Dispatch(Lower(input)) == LowerArgs(Dispatch(input))
  {
    LowerTrimmed(input);
    LowerIdempotent(input);
    if StartsWith(Lower(input), "pdf ") {
      DispatchLowerPdf(input);
    } else if StartsWith(Lower(input), "ask ") {
      DispatchLowerAsk(input);
    }
  }

  lemma DispatchLowerPdf(input: string)
    requires IsTrimmed(input) && IsTrimmed(Lower(input)) && Lower(Lower(input)) == Lower(input)
    requires StartsWith(Lower(input), "pdf ")
    ensures Dispatch(Lower(input)) == LowerArgs(Dispatch(input))
  {
    DispatchPdfBranch(input);
    DispatchPdfBranch(Lower(input));
    SplitLower(input, 2);
  }

  /** What `Dispatch` does with a stripped line that starts `pdf `, in any case. */
  lemma DispatchPdfBranch(input: string)
    requires IsTrimmed(input) && StartsWith(Lower(input), "pdf ")
    ensures var parts := Split(input, 2);
      Dispatch(input) == if |parts| < 3 then PdfUsage else Pdf(parts[1], parts[2])
  {
    assert Lower(input)[3] == ' ';
  }

  lemma DispatchLowerAsk(input: string)
    requires IsTrimmed(input) && IsTrimmed(Lower(input)) && Lower(Lower(input)) == Lower(input)
    requires StartsWith(Lower(input), "ask ") && !StartsWith(Lower(input), "pdf ")
    ensures Dispatch(Lower(input)) == LowerArgs(Dispatch(input))
  {
    AskQueryLower(input);
  }

  lemma LowerTrimmed(input: string)
    requires IsTrimmed(input)
    ensures IsTrimmed(Lower(input))
  {
    StripTrimmed(input);
    StripLower(input);
  }

  /** Lower-casing the line lower-cases the query cut from it. */
  lemma AskQueryLower(input: string)
    requires IsTrimmed(input) && StartsWith(Lower(input), "ask ")
    ensures |input| > 4 && Lower(input)[4..] == Lower(input[4..])
  {
    AskArgWellFormed(input);
    LowerSlice(input, 4, |input|);
    assert input[4..|input|] == input[4..];
    assert Lower(input)[4..|input|] == Lower(input)[4..];
  }
}

=== FILE: formula_store.dfy ===
/**
 The formula cache: the JSON document kept in `formulas.json`, the check that
 repairs it at start-up (`validate_and_fix_json`, `init_formulas_db`) and the
 cache-or-generate lookup `get_formula`.

 The file is modelled by what reading it yields, the language model by a
 function from prompt to response, and a save by whether the write succeeds.
 */
module FormulaStore {
  import opened Text

  /** A decoded JSON value. Numbers keep their source text: nothing here computes with them. */
  datatype Json =
    | JNull
    | JBool(b: bool)
    | JNumber(repr: string)
    | JString(str: string)
    | JArray(items: seq<Json>)
    | JObject(fields: map<string, Json>)

  /** The in-memory cache: lower-cased query to stored entry. */
  type FormulaDb = map<string, Json>

  /** What opening and decoding the store file yields. */
  datatype StoreFile =
    | Decoded(doc: Json)   // the file opened and held well-formed JSON
    | Undecodable          // the file opened but is not JSON, or not UTF-8
    | Unopenable           // the file is missing or cannot be opened for reading

  /** Why start-up stops with an uncaught exception. */
  datatype Crash =
    | OpenFailed           // opening for reading raised; nothing catches it
    | NotAnObject          // the document is JSON but not an object, so `data.get` raises
    | ResetWriteFailed     // writing the default document back raised inside the handler

  datatype Validation =
    | Kept(data: Json)     // the document was valid and is used as it stands
    | ResetToDefault       // the default document was written back and is used
    | ValidationCrash(cause: Crash)

  datatype Startup =
    | Ready(db: FormulaDb, file: StoreFile)   // the cache, and what the store file now holds
    | StartupCrash(cause: Crash)

  const FormulasKey: string := "formulas"

  /** `{"formulas": {}}`. */
  const DefaultDocument: Json := JObject(map[FormulasKey := JObject(map[])])

  /** A document the bot accepts: an object whose `formulas` entry, if there is one,
      is an object too. */
  predicate IsValidDocument(doc: Json) {
    doc.JObject? && (FormulasKey in doc.fields ==> doc.fields[FormulasKey].JObject?)
  }

  /** `data.get("formulas", {})` for a valid document. */
  function FormulasOf(doc: Json): (db: FormulaDb)
    requires IsValidDocument(doc)
    ensures FormulasKey !in doc.fields ==> db == map[]
    ensures FormulasKey in doc.fields ==> doc.fields[FormulasKey] == JObject(db)
  {
    if FormulasKey in doc.fields then doc.fields[FormulasKey].fields else map[]
  }

  /** `validate_and_fix_json`: keep a valid document, write the default over an invalid
      one, and let the other errors escape. `canWrite` says whether writing the store
      file succeeds. */
  function ValidateAndFix(file: StoreFile, canWrite: bool): (v: Validation)
    ensures v.Kept? <==> file.Decoded? && IsValidDocument(file.doc)
    ensures v.Kept? ==> v.data == file.doc
    ensures v == ResetToDefault <==> canWrite && (file.Undecodable? || (file.Decoded? && file.doc.JObject? && !IsValidDocument(file.doc)))
    ensures v == ValidationCrash(OpenFailed) <==> file.Unopenable?
    ensures v == ValidationCrash(NotAnObject) <==> file.Decoded? && !file.doc.JObject?
  {
    match file
    case Unopenable => ValidationCrash(OpenFailed)
    case Undecodable => if canWrite then ResetToDefault else ValidationCrash(ResetWriteFailed)
    case Decoded(doc) =>
      if !doc.JObject? then ValidationCrash(NotAnObject)
      else
        var formulas := if FormulasKey in doc.fields then doc.fields[FormulasKey] else JObject(map[]);
        if !formulas.JObject? then
          if canWrite then ResetToDefault else ValidationCrash(ResetWriteFailed)
        else Kept(doc)
  }

  /** `init_formulas_db`: the cache start-up leaves behind, and the store file's contents then. */
  function InitFormulasDb(file: StoreFile, canWrite: bool): (s: Startup)
    ensures s.Ready? ==> s.file.Decoded? && IsValidDocument(s.file.doc)
    ensures s.Ready? ==> s.db == FormulasOf(s.file.doc)
    ensures s.Ready? && s.file != file ==> s.file == Decoded(DefaultDocument) && s.db == map[]
    ensures s.Ready? <==> !ValidateAndFix(file, canWrite).ValidationCrash?
    ensures s.StartupCrash? ==> s.cause == ValidateAndFix(file, canWrite).cause
    ensures file.Decoded? && IsValidDocument(file.doc) ==> s == Ready(FormulasOf(file.doc), file)
    ensures ValidateAndFix(file, canWrite) == ResetToDefault ==> s == Ready(map[], Decoded(DefaultDocument))
  {
    match ValidateAndFix(file, canWrite)
    case Kept(doc) => Ready(FormulasOf(doc), file)
    case ResetToDefault => Ready(map[], Decoded(DefaultDocument))
    case ValidationCrash(cause) => StartupCrash(cause)
  }

  /** The document `get_formula` writes: the cache under `formulas` and nothing else. */
  function SaveDocument(db: FormulaDb): (doc: Json)
    ensures IsValidDocument(doc) && FormulasOf(doc) == db
    ensures doc.fields.Keys == {FormulasKey}
  {
    JObject(map[FormulasKey := JObject(db)])
  }

  // ---------------------------------------------------------------------------
  // get_formula

  const PromptHead: string := "Provide the exact formula for "
  const PromptTail: string := " with brief explanation. Use LaTeX math formatting with $$ when appropriate."

  /** The prompt sent to the model for a query, with the query as typed. */
  function FormulaPrompt(query: string): (p: string)
    ensures |p| == |PromptHead| + |query| + |PromptTail|
    ensures p[|PromptHead|..|PromptHead| + |query|] == query
  {
    PromptHead + query + PromptTail
  }

  /** The query a prompt was built from. */
  function PromptQuery(p: string): string
    requires |PromptHead| + |PromptTail| <= |p|
  {
    p[|PromptHead|..|p| - |PromptTail|]
  }

  datatype FormulaReply =
    | FromDatabase(entry: Json)   // "From Database" followed by the stored entry
    | NewFormula(text: string)    // "New Formula" followed by the model's response

  /** One call of `get_formula`: the reply, the cache after it, the prompts sent to the
      model, and the documents written to the store file. */
  datatype FormulaStep = FormulaStep(reply: FormulaReply, db: FormulaDb, prompts: seq<string>, saved: seq<Json>)

  /** `get_formula`: a cached entry is returned as it is; otherwise the model is asked once,
      its response is cached under the lower-cased query and the whole cache is saved.
      `saveOk` says whether the save succeeds; a failed save is only logged. */
  function GetFormula(db: FormulaDb, query: string, generate: string -> string, saveOk: bool): (r: FormulaStep)
    ensures r.reply.FromDatabase? <==> Lower(query) in db
    ensures Lower(query) in db ==> r == FormulaStep(FromDatabase(db[Lower(query)]), db, [], [])
    ensures Lower(query) !in db ==>
      && r.prompts == [FormulaPrompt(query)]
      && r.reply == NewFormula(generate(FormulaPrompt(query)))
      && r.db.Keys == db.Keys + {Lower(query)}
      && r.db[Lower(query)] == JString(generate(FormulaPrompt(query)))
      && (forall k | k in db :: r.db[k] == db[k])
      && r.saved == (if saveOk then [SaveDocument(r.db)] else [])
  {
    var key := Lower(query);
    if key in db then
      FormulaStep(FromDatabase(db[key]), db, [], [])
    else
      var response := generate(FormulaPrompt(query));
      var db' := db[key := JString(response)];
      FormulaStep(NewFormula(response), db', [FormulaPrompt(query)], if saveOk then [SaveDocument(db')] else [])
  }

  /** Every key of the cache is in lower case. */
  predicate KeysLower(db: FormulaDb) {
    forall k | k in db :: Lower(k) == k
  }

  /** Several `ask` commands in a row, each seeing the cache the previous one left. */
  datatype Batch = Batch(replies: seq<FormulaReply>, db: FormulaDb, prompts: seq<string>)

  function AskAll(db: FormulaDb, queries: seq<string>, generate: string -> string, saveOk: bool): (b: Batch)
    ensures |b.replies| == |queries|
    ensures forall i | 0 <= i < |queries| ::
      b.replies[i].FromDatabase? <==> Lower(queries[i]) in db || Lower(queries[i]) in LowerKeys(queries[..i])
    ensures forall k | k in db :: k in b.db && b.db[k] == db[k]
    ensures forall i | 0 <= i < |queries| && b.replies[i].NewFormula? ::
      b.replies[i].text == generate(FormulaPrompt(queries[i]))
    ensures forall i | 0 <= i < |queries| && b.replies[i].FromDatabase? ::
      Lower(queries[i]) in b.db && b.replies[i].entry == b.db[Lower(queries[i])]
    decreases |queries|
  {
    if queries == [] then Batch([], db, [])
    else
      var step := GetFormula(db, queries[0], generate, saveOk);
      var rest := AskAll(step.db, queries[1..], generate, saveOk);
      var b := Batch([step.reply] + rest.replies, rest.db, step.prompts + rest.prompts);
      assert forall i | 0 < i < |queries| :: b.replies[i] == rest.replies[i - 1];
      forall i | 0 < i < |queries| ensures LowerKeys(queries[..i]) == {Lower(queries[0])} + LowerKeys(queries[1..][..i - 1]) {
        LowerKeysPrefix(queries, i);
      }
      b
  }

  lemma LowerKeysPrefix(queries: seq<string>, i: nat)
    requires 0 < i <= |queries|
    ensures LowerKeys(queries[..i]) == {Lower(queries[0])} + LowerKeys(queries[1..][..i - 1])
  {
    assert queries[..i][1..] == queries[1..][..i - 1];
    LowerKeysCons(queries[..i]);
  }

  /** The cache keys a list of queries looks up. */
  function LowerKeys(queries: seq<string>): set<string> {
    set q | q in queries :: Lower(q)
  }

  // ---------------------------------------------------------------------------
  // Properties

  /** What `get_formula` saves is what the next start-up loads, with no repair. */
  lemma SaveThenLoad(db: FormulaDb, canWrite: bool)
    ensures InitFormulasDb(Decoded(SaveDocument(db)), canWrite) == Ready(db, Decoded(SaveDocument(db)))
  {
  }

  /** Start-up is idempotent: on the file the first start-up leaves, a second one rewrites
      nothing and builds the same cache, whether or not it could write. */
  lemma StartupIdempotent(file: StoreFile, canWrite: bool, canWriteAgain: bool)
    requires InitFormulasDb(file, canWrite).Ready?
    ensures InitFormulasDb(InitFormulasDb(file, canWrite).file, canWriteAgain) == InitFormulasDb(file, canWrite)
  {
  }

  /** A prompt gives its query back, so distinct queries make distinct prompts. */
  lemma PromptQueryInverse(query: string)
    ensures PromptQuery(FormulaPrompt(query)) == query
  {
  }

  lemma FormulaPromptInjective(q1: string, q2: string)
    requires FormulaPrompt(q1) == FormulaPrompt(q2)
    ensures q1 == q2
  {
    PromptQueryInverse(q1);
    PromptQueryInverse(q2);
  }

  /** After a miss, the same query in any letter case is a hit on what the model said:
      no second model call, no change to the cache. */
  lemma HitAfterMiss(db: FormulaDb, query: string, again: string, generate: string -> string, saveOk: bool, saveOkAgain: bool)
    requires Lower(query) !in db
    requires Lower(again) == Lower(query)
    ensures var first := GetFormula(db, query, generate, saveOk);
            var second := GetFormula(first.db, again, generate, saveOkAgain);
            && second.reply == FromDatabase(JString(generate(FormulaPrompt(query))))
            && second.db == first.db
            && second.prompts == []
  {
  }

  /** A failed save loses nothing in memory: the reply and the cache do not depend on it. */
  lemma SaveFailureKeepsEntry(db: FormulaDb, query: string, generate: string -> string)
    ensures GetFormula(db, query, generate, false).reply == GetFormula(db, query, generate, true).reply
    ensures GetFormula(db, query, generate, false).db == GetFormula(db, query, generate, true).db
    ensures GetFormula(db, query, generate, false).saved == []
  {
  }

  /** Keys stay lower-case: the cache never gains an entry a lookup could not reach. */
  lemma GetFormulaKeepsKeysLower(db: FormulaDb, query: string, generate: string -> string, saveOk: bool)
    requires KeysLower(db)
    ensures KeysLower(GetFormula(db, query, generate, saveOk).db)
  {
    LowerIdempotent(query);
  }

  /** Over a run of `ask` commands, the model is asked exactly once per lower-cased query
      that was not yet cached, and the cache ends up holding exactly the old keys and the
      queried ones. */
  lemma {:induction false} AskAllCallsOncePerNewKey(db: FormulaDb, queries: seq<string>, generate: string -> string, saveOk: bool)
    ensures |AskAll(db, queries, generate, saveOk).prompts| == |LowerKeys(queries) - db.Keys|
    ensures AskAll(db, queries, generate, saveOk).db.Keys == db.Keys + LowerKeys(queries)
    decreases |queries|
  {
    if queries != [] {
      var q, rest := queries[0], queries[1..];
      var step := GetFormula(db, q, generate, saveOk);
      AskAllCallsOncePerNewKey(step.db, rest, generate, saveOk);
      LowerKeysCons(queries);
      NewKeysStep(db.Keys, Lower(q), LowerKeys(rest), step.db.Keys);
    }
  }

  lemma LowerKeysCons(queries: seq<string>)
    requires queries != []
    ensures LowerKeys(queries) == {Lower(queries[0])} + LowerKeys(queries[1..])
  {
    assert forall x | x in queries :: x == queries[0] || x in queries[1..];
    assert forall x | x in queries[1..] :: x in queries;
  }

  /** The set arithmetic of one lookup: a new key is counted once and then is old. */
  lemma NewKeysStep(cached: set<string>, k: string, later: set<string>, next: set<string>)
    requires next == cached + {k}
    ensures |({k} + later) - cached| == (if k in cached then 0 else 1) + |later - next|
    ensures next + later == cached + ({k} + later)
  {
    if k in cached {
      assert ({k} + later) - cached == later - next;
    } else {
      assert ({k} + later) - cached == {k} + (later - next);
      assert k !in later - next;
    }
  }
}

=== FILE: pdf_query.dfy ===
/**
 Answering a question from a PDF in the `documents` directory (`query_pdf`) and
 listing the PDFs there (`list_files`).

 The directory is modelled as a map from file name to what opening that file
 yields: the text of each page, or the message of the error the PDF library
 raised. The language model is a function from prompt to response.
 */
module PdfQuery {
  import opened Text

  /** At most this many pages are read. */
  const MaxPages: nat := 10

  /** At most this many characters of the extracted text go into the prompt. */
  const MaxExcerpt: nat := 10000

  datatype DocEntry =
    | Pages(texts: seq<string>)   // the file opened; the text `get_text` gives for each page
    | OpenFailed(message: string) // opening or reading it raised, with this message

  /** The `documents` directory: each file that exists, by name. */
  type Documents = map<string, DocEntry>

  datatype PdfReply =
    | FileNotFound(filename: string)
    | EmptyDocument               // the text read is empty or only whitespace
    | ProcessingError(message: string)
    | Answer(response: string)

  /** A reply together with the prompts sent to the model while producing it. */
  datatype PdfResult = PdfResult(reply: PdfReply, prompts: seq<string>)

  function Min(a: nat, b: nat): nat {
    if a <= b then a else b
  }

  /** The pages joined end to end, in order. */
  function Concat(pages: seq<string>): (text: string)
    ensures pages == [] ==> text == []
  {
    if pages == [] then [] else Concat(pages[..|pages| - 1]) + pages[|pages| - 1]
  }

  /** The text `query_pdf` reads: the first `MaxPages` pages, concatenated. */
  function ExtractedText(pages: seq<string>): string {
    Concat(pages[..Min(|pages|, MaxPages)])
  }

  /** The enumerate-and-break loop that reads the pages. */
  method ExtractText(pages: seq<string>) returns (text: string)
    ensures text == ExtractedText(pages)
  {
    text := [];
    var i := 0;
    while i < |pages|
      invariant i <= |pages| && i <= MaxPages
      invariant text == Concat(pages[..i])
    {
      if i >= MaxPages {
        break;
      }
      assert pages[..i + 1][..i] == pages[..i];
      text := text + pages[i];
      i := i + 1;
    }
    assert i == Min(|pages|, MaxPages);
  }

  /** `text[:MaxExcerpt]`. */
  function Excerpt(text: string): (e: string)
    ensures |e| == Min(|text|, MaxExcerpt)
    ensures e == text[..|e|]
  {
    if |text| <= MaxExcerpt then text else text[..MaxExcerpt]
  }

  const AnswerHead: string := "Answer based on this document:\n"
  const QuestionHead: string := "\n\nQuestion: "
  const AnswerTail: string := "\nAnswer:"

  /** The prompt sent to the model: the excerpt, then the question. */
  function PdfPrompt(excerpt: string, question: string): (p: string)
    ensures |p| == |AnswerHead| + |excerpt| + |QuestionHead| + |question| + |AnswerTail|
    ensures p[|AnswerHead|..|AnswerHead| + |excerpt|] == excerpt
    ensures p[|AnswerHead| + |excerpt| + |QuestionHead|..|p| - |AnswerTail|] == question
  {
    AnswerHead + excerpt + QuestionHead + question + AnswerTail
  }

  /** `query_pdf(filename, question)`. */
  function QueryPdf(docs: Documents, filename: string, question: string, generate: string -> string): (r: PdfResult)
    ensures |r.prompts| <= 1
    ensures filename !in docs ==> r == PdfResult(FileNotFound(filename), [])
    ensures r.reply.FileNotFound? <==> filename !in docs
    ensures r.reply.ProcessingError? <==> filename in docs && docs[filename].OpenFailed?
    ensures r.reply.ProcessingError? ==> r.reply.message == docs[filename].message && r.prompts == []
    ensures filename in docs && docs[filename].Pages? && !IsBlank(ExtractedText(docs[filename].texts)) ==>
      r.reply.Answer?
    ensures r.reply == EmptyDocument <==>
      filename in docs && docs[filename].Pages? && IsBlank(ExtractedText(docs[filename].texts))
    ensures r.reply.Answer? <==> r.prompts != []
    ensures r.prompts != [] ==>
      && filename in docs && docs[filename].Pages?
      && r.prompts == [PdfPrompt(Excerpt(ExtractedText(docs[filename].texts)), question)]
      && r.reply == Answer(generate(r.prompts[0]))
  {
    if filename !in docs then PdfResult(FileNotFound(filename), [])
    else
      match docs[filename]
      case OpenFailed(message) => PdfResult(ProcessingError(message), [])
      case Pages(texts) =>
        var text := ExtractedText(texts);
        if Strip(text) == [] then PdfResult(EmptyDocument, [])
        else
          var prompt := PdfPrompt(Excerpt(text), question);
          PdfResult(Answer(generate(prompt)), [prompt])
  }

  // ---------------------------------------------------------------------------
  // list_files

  datatype Listing =
    | Entries(names: seq<string>)   // what `os.listdir` returns
    | ListFailed                    // `os.listdir` raised

  /** The names that end in `.pdf`, in listing order. */
  function PdfNames(names: seq<string>): (r: seq<string>)
    ensures |r| <= |names|
    ensures forall i | 0 <= i < |r| :: r[i] in names && EndsWith(r[i], ".pdf")
    ensures forall i | 0 <= i < |names| && EndsWith(names[i], ".pdf") :: names[i] in r
  {
    if names == [] then []
    else (if EndsWith(names[0], ".pdf") then [names[0]] else []) + PdfNames(names[1..])
  }

  /** `list_files`: the PDFs, or nothing when the directory cannot be listed. */
  function ListFiles(listing: Listing): (r: seq<string>)
    ensures listing.ListFailed? ==> r == []
    ensures forall f | f in r :: EndsWith(f, ".pdf")
    ensures listing.Entries? ==> forall f | f in listing.names && EndsWith(f, ".pdf") :: f in r
    ensures listing.Entries? ==> r == PdfNames(listing.names)
  {
    match listing
    case ListFailed => []
    case Entries(names) =>
      PdfNamesMembers(names);
      PdfNames(names)
  }

  // ---------------------------------------------------------------------------
  // Properties

  /** Membership in the filtered list: exactly the listed names that end in `.pdf`. */
  lemma {:induction false} PdfNamesMembers(names: seq<string>)
    ensures forall f :: f in PdfNames(names) <==> f in names && EndsWith(f, ".pdf")
  {
    if names != [] {
      PdfNamesMembers(names[1..]);
      assert forall f | f in names :: f == names[0] || f in names[1..];
    }
  }

  /** Filtering a listing split in two filters each half. */
  lemma {:induction false} PdfNamesAppend(a: seq<string>, b: seq<string>)
    ensures PdfNames(a + b) == PdfNames(a) + PdfNames(b)
  {
    if a == [] {
      assert a + b == b;
    } else {
      var head := if EndsWith(a[0], ".pdf") then [a[0]] else [];
      assert (a + b)[0] == a[0] && (a + b)[1..] == a[1..] + b;
      PdfNamesAppend(a[1..], b);
      assert PdfNames(a + b) == head + (PdfNames(a[1..]) + PdfNames(b));
    }
  }

  /** Filtering twice filters once. */
  lemma {:induction false} PdfNamesIdempotent(names: seq<string>)
    ensures PdfNames(PdfNames(names)) == PdfNames(names)
  {
    if names != [] {
      var head := if EndsWith(names[0], ".pdf") then [names[0]] else [];
      PdfNamesIdempotent(names[1..]);
      PdfNamesAppend(head, PdfNames(names[1..]));
      if head != [] {
        assert head[1..] == [];
      }
    }
  }

  /** Joining two runs of pages joins their texts. */
  lemma {:induction false} ConcatAppend(a: seq<string>, b: seq<string>)
    ensures Concat(a + b) == Concat(a) + Concat(b)
    decreases |b|
  {
    if b == [] {
      assert a + b == a;
    } else {
      var c := b[..|b| - 1];
      assert (a + b)[..|a + b| - 1] == a + c;
      ConcatAppend(a, c);
    }
  }

  /** Every page read sits whole in the extracted text, right after the pages before it. */
  lemma PageInText(pages: seq<string>, i: nat)
    requires i < Min(|pages|, MaxPages)
    ensures var start := |Concat(pages[..i])|;
      && start + |pages[i]| <= |ExtractedText(pages)|
      && ExtractedText(pages)[start..start + |pages[i]|] == pages[i]
  {
    var read := pages[..Min(|pages|, MaxPages)];
    assert read[..i + 1][..i] == read[..i] == pages[..i];
    assert read[..i + 1] + read[i + 1..] == read;
    ConcatAppend(read[..i + 1], read[i + 1..]);
    assert Concat(read[..i + 1]) == Concat(pages[..i]) + pages[i];
  }

  /** The concatenation is blank exactly when every page is. */
  lemma {:induction false} ConcatBlank(pages: seq<string>)
    ensures IsBlank(Concat(pages)) <==> forall i | 0 <= i < |pages| :: IsBlank(pages[i])
  {
    if pages != [] {
      var init, last := pages[..|pages| - 1], pages[|pages| - 1];
      ConcatBlank(init);
      BlankAppend(Concat(init), last);
      assert forall i | 0 <= i < |init| :: init[i] == pages[i];
    }
  }

  lemma BlankAppend(a: string, b: string)
    ensures IsBlank(a + b) <==> IsBlank(a) && IsBlank(b)
  {
    if IsBlank(a + b) {
      assert forall i | 0 <= i < |a| :: (a + b)[i] == a[i];
      assert forall i | 0 <= i < |b| :: (a + b)[|a| + i] == b[i];
    }
  }

  /** A document whose first pages hold no text, and no pages at all, never reach the model. */
  lemma BlankPagesNeverReachModel(docs: Documents, filename: string, question: string, generate: string -> string)
    requires filename in docs && docs[filename].Pages?
    requires forall i | 0 <= i < Min(|docs[filename].texts|, MaxPages) :: IsBlank(docs[filename].texts[i])
    ensures QueryPdf(docs, filename, question, generate) == PdfResult(EmptyDocument, [])
  {
    var texts := docs[filename].texts;
    var read := texts[..Min(|texts|, MaxPages)];
    ConcatBlank(read);
  }

  /** Pages after the tenth never change the reply or the prompt. */
  lemma LaterPagesIgnored(docs: Documents, filename: string, first: seq<string>, later: seq<string>,
                          question: string, generate: string -> string)
    requires |first| == MaxPages
    ensures QueryPdf(docs[filename := Pages(first + later)], filename, question, generate)
         == QueryPdf(docs[filename := Pages(first)], filename, question, generate)
  {
    assert (first + later)[..MaxPages] == first == first[..MaxPages];
  }

  /** The prompt carries the document text whole when it is short, and its first
      `MaxExcerpt` characters otherwise. */
  lemma ExcerptWholeWhenShort(text: string)
    ensures |text| <= MaxExcerpt ==> Excerpt(text) == text
    ensures |text| > MaxExcerpt ==> |Excerpt(text)| == MaxExcerpt && Excerpt(text) + text[MaxExcerpt..] == text
  {
  }
}

=== FILE: session.dfy ===
/**
 The read-eval loop of `main`: each input line is classified, answered, and
 the loop ends at the first `exit` or `quit`. The lines typed are given as a
 sequence; the model, the outcome of saves, the `documents` directory and its
 listing are fixed for the session.
 */
module Session {
  import opened Text
  import opened Commands
  import opened FormulaStore
  import opened PdfQuery

  /** Everything outside the program that the loop consults. */
  datatype Env = Env(
    generate: string -> string,   // the language model, prompt to response
    saveSucceeds: bool,           // whether writing `formulas.json` succeeds
    documents: Documents,         // the `documents` directory
    listing: Listing)             // what listing that directory yields

  /** What the loop prints for one line. */
  datatype Output =
    | PleaseEnterCommand
    | HelpText
    | FileList(files: seq<string>)   // "Available PDFs" and the names, or "No PDFs found"
    | PdfUsageText
    | PdfOutput(pdf: PdfReply)
    | FormulaOutput(formula: FormulaReply)
    | InvalidCommand

  /** The state the loop carries from line to line: the cache and the store file. */
  datatype State = State(db: FormulaDb, store: StoreFile)

  datatype StepResult = StepResult(output: Output, next: State)

  /** One pass of the loop body for a command other than `Exit`. */
  function Respond(env: Env, st: State, c: Command): (r: StepResult)
    requires c != Exit
    ensures Answers(env, st.db, [], c, r.output)
    ensures !c.Ask? ==> r.next == st
    ensures c.Ask? ==> r.next.db == GetFormula(st.db, c.query, env.generate, env.saveSucceeds).db
    ensures c.Ask? && env.saveSucceeds && Lower(c.query) !in st.db ==> r.next.store == Decoded(SaveDocument(r.next.db))
    ensures c.Ask? && (!env.saveSucceeds || Lower(c.query) in st.db) ==> r.next.store == st.store
  {
    match c
    case Empty => StepResult(PleaseEnterCommand, st)
    case Help => StepResult(HelpText, st)
    case List => StepResult(FileList(ListFiles(env.listing)), st)
    case PdfUsage => StepResult(PdfUsageText, st)
    case Pdf(file, question) =>
      StepResult(PdfOutput(QueryPdf(env.documents, file, question, env.generate).reply), st)
    case Ask(query) =>
      var step := GetFormula(st.db, query, env.generate, env.saveSucceeds);
      var store := if step.saved == [] then st.store else Decoded(step.saved[|step.saved| - 1]);
      StepResult(FormulaOutput(step.reply), State(step.db, store))
    case Invalid => StepResult(InvalidCommand, st)
  }

  /** The cache keys the `ask` commands among `cmds` look up. */
  function AskedKeys(cmds: seq<Command>): set<string> {
    if cmds == [] then {}
    else
      var c := cmds[|cmds| - 1];
      AskedKeys(cmds[..|cmds| - 1]) + (if c.Ask? then {Lower(c.query)} else {})
  }

  lemma AskedKeysSnoc(cmds: seq<Command>, i: nat)
    requires i < |cmds|
    ensures AskedKeys(cmds[..i + 1])
         == AskedKeys(cmds[..i]) + (if cmds[i].Ask? then {Lower(cmds[i].query)} else {})
  {
    assert cmds[..i + 1][..i] == cmds[..i];
  }

  datatype Option<T> = None | Some(value: T)

  /** The first `ask` among `cmds` whose query lower-cases to `key`, as it was typed. */
  function FirstAsk(cmds: seq<Command>, key: string): (q: Option<string>)
    ensures q.Some? <==> key in AskedKeys(cmds)
    ensures q.Some? ==> Lower(q.value) == key && Ask(q.value) in cmds
    ensures q.Some? ==> exists i | 0 <= i < |cmds| :: cmds[i] == Ask(q.value) && key !in AskedKeys(cmds[..i])
  {
    if cmds == [] then None
    else
      var init, c := cmds[..|cmds| - 1], cmds[|cmds| - 1];
      assert cmds == init + [c];
      match FirstAsk(init, key)
      case Some(q) =>
        var i :| 0 <= i < |init| && init[i] == Ask(q) && key !in AskedKeys(init[..i]);
        assert cmds[..i] == init[..i];
        Some(q)
      case None =>
        if c.Ask? && Lower(c.query) == key then
          assert cmds[..|cmds| - 1] == init;
          Some(c.query)
        else None
  }

  lemma FirstAskSnoc(cmds: seq<Command>, i: nat, key: string)
    requires i < |cmds|
    ensures FirstAsk(cmds[..i + 1], key)
         == if FirstAsk(cmds[..i], key).Some? then FirstAsk(cmds[..i], key)
            else if cmds[i].Ask? && Lower(cmds[i].query) == key then Some(cmds[i].query)
            else None
  {
    assert cmds[..i + 1][..i] == cmds[..i];
  }

  /** The entry the cache holds for `key` once `earlier` has run from the start-up cache
      `db0`: the start-up entry, or else the model's answer to the first query asked
      under that key. */
  function Remembered(env: Env, db0: FormulaDb, earlier: seq<Command>, key: string): Json
    requires key in db0 || key in AskedKeys(earlier)
  {
    if key in db0 then db0[key] else JString(env.generate(FormulaPrompt(FirstAsk(earlier, key).value)))
  }

  /** The output command `c` gets after the commands `earlier` ran from the start-up
      cache `db0`. An `ask` is answered from the cache exactly when its key was there at
      start-up or was asked before, in any letter case; otherwise the model is asked. */
  predicate Answers(env: Env, db0: FormulaDb, earlier: seq<Command>, c: Command, o: Output) {
    match c
    case Exit => false
    case Empty => o == PleaseEnterCommand
    case Help => o == HelpText
    case List => o == FileList(ListFiles(env.listing))
    case PdfUsage => o == PdfUsageText
    case Pdf(file, question) => o == PdfOutput(QueryPdf(env.documents, file, question, env.generate).reply)
    case Ask(query) =>
      var key := Lower(query);
      if key in db0 || key in AskedKeys(earlier) then
        o == FormulaOutput(FromDatabase(Remembered(env, db0, earlier, key)))
      else
        o == FormulaOutput(NewFormula(env.generate(FormulaPrompt(query))))
    case Invalid => o == InvalidCommand
  }

  /** Each line's command, in order. */
  function CommandsOf(lines: seq<string>): (cmds: seq<Command>)
    ensures |cmds| == |lines|
    ensures forall j | 0 <= j < |lines| :: cmds[j] == Classify(lines[j])
  {
    seq(|lines|, j requires 0 <= j < |lines| => Classify(lines[j]))
  }

  /** The loop of `main`, from the state start-up leaves, over the lines typed. It stops
      at the first `exit`/`quit`, or when the lines run out. */
  method RunSession(env: Env, start: State, lines: seq<string>)
    returns (outputs: seq<Output>, final: State, exited: bool)
    ensures exited ==> |outputs| < |lines| && Classify(lines[|outputs|]) == Exit
    ensures !exited ==> |outputs| == |lines|
    ensures forall j | 0 <= j < |outputs| :: Classify(lines[j]) != Exit
    ensures forall j | 0 <= j < |outputs| ::
      Answers(env, start.db, CommandsOf(lines)[..j], Classify(lines[j]), outputs[j])
    ensures final.db.Keys == start.db.Keys + AskedKeys(CommandsOf(lines)[..|outputs|])
    ensures forall k | k in final.db :: final.db[k] == Remembered(env, start.db, CommandsOf(lines)[..|outputs|], k)
    ensures forall k | k in start.db :: k in final.db && final.db[k] == start.db[k]
    ensures KeysLower(start.db) ==> KeysLower(final.db)
    ensures !env.saveSucceeds ==> final.store == start.store
    ensures env.saveSucceeds && final.db != start.db ==> final.store == Decoded(SaveDocument(final.db))
    ensures final.db == start.db ==> final.store == start.store
  {
    var cmds := CommandsOf(lines);
    outputs, final, exited := RunCommands(env, start, cmds);
  }

  /** What holds after the loop has answered `outputs` for the first commands of `cmds`,
      reaching `final` from `start`. */
  predicate Progress(env: Env, start: State, cmds: seq<Command>, outputs: seq<Output>, final: State) {
    && |outputs| <= |cmds|
    && (forall j | 0 <= j < |outputs| :: cmds[j] != Exit && Answers(env, start.db, cmds[..j], cmds[j], outputs[j]))
    && final.db.Keys == start.db.Keys + AskedKeys(cmds[..|outputs|])
    && (forall k | k in final.db :: final.db[k] == Remembered(env, start.db, cmds[..|outputs|], k))
    && (KeysLower(start.db) ==> KeysLower(final.db))
    && (!env.saveSucceeds ==> final.store == start.store)
    && (env.saveSucceeds && final.db != start.db ==> final.store == Decoded(SaveDocument(final.db)))
    && (final.db == start.db ==> final.store == start.store)
  }

  /** The loop, over the commands the lines stand for. */
  method RunCommands(env: Env, start: State, cmds: seq<Command>)
    returns (outputs: seq<Output>, final: State, exited: bool)
    ensures exited ==> |outputs| < |cmds| && cmds[|outputs|] == Exit
    ensures !exited ==> |outputs| == |cmds|
    ensures Progress(env, start, cmds, outputs, final)
  {
    outputs := [];
    final := start;
    exited := false;
    while |outputs| < |cmds|
      invariant Progress(env, start, cmds, outputs, final)
      decreases |cmds| - |outputs|
    {
      if cmds[|outputs|] == Exit {
        exited := true;
        break;
      }
      var r := Respond(env, final, cmds[|outputs|]);
      StepKeepsProgress(env, start, cmds, outputs, final);
      outputs := outputs + [r.output];
      final := r.next;
    }
  }

  /** One pass of the loop body keeps `Progress`. */
  lemma StepKeepsProgress(env: Env, start: State, cmds: seq<Command>, outputs: seq<Output>, final: State)
    requires Progress(env, start, cmds, outputs, final)
    requires |outputs| < |cmds| && cmds[|outputs|] != Exit
    ensures var r := Respond(env, final, cmds[|outputs|]);
      Progress(env, start, cmds, outputs + [r.output], r.next)
  {
    var r := Respond(env, final, cmds[|outputs|]);
    StepAnswers(env, start, cmds, outputs, final);
    AnswersExtend(env, start.db, cmds, outputs, r.output);
    StepCache(env, start, cmds, outputs, final);
    StepStore(env, start, cmds, outputs, final);
  }

  /** Appending the answer to the next command keeps every output answered. */
  lemma AnswersExtend(env: Env, db0: FormulaDb, cmds: seq<Command>, outputs: seq<Output>, o: Output)
    requires |outputs| < |cmds|
    requires forall j | 0 <= j < |outputs| :: cmds[j] != Exit && Answers(env, db0, cmds[..j], cmds[j], outputs[j])
    requires cmds[|outputs|] != Exit && Answers(env, db0, cmds[..|outputs|], cmds[|outputs|], o)
    ensures var outs := outputs + [o];
      forall j | 0 <= j < |outs| :: cmds[j] != Exit && Answers(env, db0, cmds[..j], cmds[j], outs[j])
  {
    var outs := outputs + [o];
    assert forall j | 0 <= j < |outputs| :: outs[j] == outputs[j];
    assert outs[|outputs|] == o;
  }

  /** The command the loop answers next gets the output `Answers` gives it. */
  lemma StepAnswers(env: Env, start: State, cmds: seq<Command>, outputs: seq<Output>, final: State)
    requires Progress(env, start, cmds, outputs, final)
    requires |outputs| < |cmds| && cmds[|outputs|] != Exit
    ensures Answers(env, start.db, cmds[..|outputs|], cmds[|outputs|], Respond(env, final, cmds[|outputs|]).output)
  {
    var c := cmds[|outputs|];
    if c.Ask? {
      var key := Lower(c.query);
      assert key in final.db <==> key in start.db || key in AskedKeys(cmds[..|outputs|]);
    }
  }

  /** After the next command, the cache still holds exactly the remembered entries. */
  lemma StepCache(env: Env, start: State, cmds: seq<Command>, outputs: seq<Output>, final: State)
    requires Progress(env, start, cmds, outputs, final)
    requires |outputs| < |cmds| && cmds[|outputs|] != Exit
    ensures var next := Respond(env, final, cmds[|outputs|]).next;
      && next.db.Keys == start.db.Keys + AskedKeys(cmds[..|outputs| + 1])
      && (forall k | k in next.db :: next.db[k] == Remembered(env, start.db, cmds[..|outputs| + 1], k))
      && (KeysLower(start.db) ==> KeysLower(next.db))
  {
    StepKeys(env, start, cmds, outputs, final);
    StepEntries(env, start, cmds, outputs, final);
    StepKeysLower(env, start, cmds, outputs, final);
  }

  lemma StepKeys(env: Env, start: State, cmds: seq<Command>, outputs: seq<Output>, final: State)
    requires Progress(env, start, cmds, outputs, final)
    requires |outputs| < |cmds| && cmds[|outputs|] != Exit
    ensures Respond(env, final, cmds[|outputs|]).next.db.Keys == start.db.Keys + AskedKeys(cmds[..|outputs| + 1])
  {
    AskedKeysSnoc(cmds, |outputs|);
  }

  lemma StepEntries(env: Env, start: State, cmds: seq<Command>, outputs: seq<Output>, final: State)
    requires Progress(env, start, cmds, outputs, final)
    requires |outputs| < |cmds| && cmds[|outputs|] != Exit
    ensures var next := Respond(env, final, cmds[|outputs|]).next;
      forall k | k in next.db ::
        && (k in start.db || k in AskedKeys(cmds[..|outputs| + 1]))
        && next.db[k] == Remembered(env, start.db, cmds[..|outputs| + 1], k)
  {
    var next := Respond(env, final, cmds[|outputs|]).next;
    forall k | k in next.db
      ensures k in start.db || k in AskedKeys(cmds[..|outputs| + 1])
      ensures next.db[k] == Remembered(env, start.db, cmds[..|outputs| + 1], k)
    {
      StepEntry(env, start, cmds, outputs, final, k);
    }
  }

  lemma StepKeysLower(env: Env, start: State, cmds: seq<Command>, outputs: seq<Output>, final: State)
    requires Progress(env, start, cmds, outputs, final)
    requires |outputs| < |cmds| && cmds[|outputs|] != Exit
    ensures KeysLower(start.db) ==> KeysLower(Respond(env, final, cmds[|outputs|]).next.db)
  {
    var c := cmds[|outputs|];
    if c.Ask? && KeysLower(start.db) {
      GetFormulaKeepsKeysLower(final.db, c.query, env.generate, env.saveSucceeds);
    }
  }

  /** One entry of the cache after the next command. */
  lemma StepEntry(env: Env, start: State, cmds: seq<Command>, outputs: seq<Output>, final: State, k: string)
    requires Progress(env, start, cmds, outputs, final)
    requires |outputs| < |cmds| && cmds[|outputs|] != Exit
    requires k in Respond(env, final, cmds[|outputs|]).next.db
    ensures k in start.db || k in AskedKeys(cmds[..|outputs| + 1])
    ensures Respond(env, final, cmds[|outputs|]).next.db[k] == Remembered(env, start.db, cmds[..|outputs| + 1], k)
  {
    var i := |outputs|;
    var c := cmds[i];
    var before, after := cmds[..i], cmds[..i + 1];
    AskedKeysSnoc(cmds, i);
    FirstAskSnoc(cmds, i, k);
    if k in final.db {
      assert k in start.db || k in AskedKeys(before);
      assert Remembered(env, start.db, after, k) == Remembered(env, start.db, before, k);
    } else {
      assert c.Ask? && k == Lower(c.query);
      assert k !in start.db && k !in AskedKeys(before);
      assert FirstAsk(after, k) == Some(c.query);
    }
  }

  /** After the next command, the store file still matches the cache, and it is left
      alone while the cache is the start-up one. */
  lemma StepStore(env: Env, start: State, cmds: seq<Command>, outputs: seq<Output>, final: State)
    requires Progress(env, start, cmds, outputs, final)
    requires |outputs| < |cmds| && cmds[|outputs|] != Exit
    ensures var next := Respond(env, final, cmds[|outputs|]).next;
      && (!env.saveSucceeds ==> next.store == start.store)
      && (env.saveSucceeds && next.db != start.db ==> next.store == Decoded(SaveDocument(next.db)))
      && (next.db == start.db ==> next.store == start.store)
  {
  }
}

=== FILE: text.dfy ===
/**
 The string primitives the bot relies on, as Python defines them for `str`:
 `isspace`, `strip`, `lower`, `startswith` / `endswith` and whitespace `split`
 with a `maxsplit` bound. Strings are sequences of Unicode scalar values; the
 scanning functions walk positions of one fixed string rather than slicing it.
 */
module Text {

  /** Python's `str.isspace` for one character: the ASCII controls
      TAB..CR and FS..US, the space, and the Unicode separators. */
  predicate IsSpace(c: char) {
    || c == ' '
    || ('\t' <= c <= '\r')
    || ('\U{1C}' <= c <= '\U{1F}')
    || c == '\U{85}' || c == '\U{A0}' || c == '\U{1680}'
    || ('\U{2000}' <= c <= '\U{200A}')
    || c == '\U{2028}' || c == '\U{2029}' || c == '\U{202F}'
    || c == '\U{205F}' || c == '\U{3000}'
  }

  /** The 29 code points Python's `str.isspace` accepts, listed one by one. */
  const Whitespace: set<char> := {
    '\t', '\n', '\U{0B}', '\U{0C}', '\r', '\U{1C}', '\U{1D}', '\U{1E}', '\U{1F}', ' ',
    '\U{85}', '\U{A0}', '\U{1680}',
    '\U{2000}', '\U{2001}', '\U{2002}', '\U{2003}', '\U{2004}', '\U{2005}',
    '\U{2006}', '\U{2007}', '\U{2008}', '\U{2009}', '\U{200A}',
    '\U{2028}', '\U{2029}', '\U{202F}', '\U{205F}', '\U{3000}'
  }

  /** The ranges `IsSpace` tests cover exactly the listed code points, and no others. */
  lemma IsSpaceExactly(c: char)
    ensures IsSpace(c) <==> c in Whitespace
  {
  }

  /** Every character is whitespace (`not s.strip()` in Python). */
  predicate IsBlank(s: string) {
    forall i | 0 <= i < |s| :: IsSpace(s[i])
  }

  /** No character is whitespace. */
  predicate HasNoSpace(s: string) {
    forall i | 0 <= i < |s| :: !IsSpace(s[i])
  }

  /** Neither end is whitespace: what `strip` leaves behind. */
  predicate IsTrimmed(s: string) {
    s == [] || (!IsSpace(s[0]) && !IsSpace(s[|s| - 1]))
  }

  predicate StartsWith(s: string, prefix: string) {
    |prefix| <= |s| && s[..|prefix|] == prefix
  }

  predicate EndsWith(s: string, suffix: string) {
    |suffix| <= |s| && s[|s| - |suffix|..] == suffix
  }

  // ---------------------------------------------------------------------------
  // Lower-casing

  /** Lower-casing of one character, restricted to ASCII letters. */
  function LowerChar(c: char): char {
    if 'A' <= c <= 'Z' then (c as int + 32) as char else c
  }

  function Lower(s: string): (r: string)
    ensures |r| == |s|
    ensures forall i | 0 <= i < |s| :: r[i] == LowerChar(s[i])
  {
    seq(|s|, i requires 0 <= i < |s| => LowerChar(s[i]))
  }

  /** Lower-casing never creates or removes whitespace. */
  lemma LowerCharKeepsSpace(c: char)
    ensures IsSpace(LowerChar(c)) <==> IsSpace(c)
  {
  }

  lemma LowerKeepsSpace(s: string, i: nat)
    requires i < |s|
    ensures IsSpace(Lower(s)[i]) <==> IsSpace(s[i])
  {
    LowerCharKeepsSpace(s[i]);
  }

  lemma LowerIdempotent(s: string)
    ensures Lower(Lower(s)) == Lower(s)
  {
  }

  lemma LowerSlice(s: string, i: nat, j: nat)
    requires i <= j <= |s|
    ensures Lower(s[i..j]) == Lower(s)[i..j]
  {
  }

  lemma LowerAppend(a: string, b: string)
    ensures Lower(a + b) == Lower(a) + Lower(b)
  {
  }

  function LowerAll(parts: seq<string>): (r: seq<string>)
    ensures |r| == |parts|
    ensures forall i | 0 <= i < |parts| :: r[i] == Lower(parts[i])
  {
    seq(|parts|, i requires 0 <= i < |parts| => Lower(parts[i]))
  }

  lemma LowerAllCons(w: string, rest: seq<string>)
    ensures LowerAll([w] + rest) == [Lower(w)] + LowerAll(rest)
  {
  }

  // ---------------------------------------------------------------------------
  // Scanning

  /** The first position at or after `i` that is not whitespace, or the end. */
  function SkipSpace(s: string, i: nat): (j: nat)
    requires i <= |s|
    ensures i <= j <= |s|
    ensures forall m | i <= m < j :: IsSpace(s[m])
    ensures j == |s| || !IsSpace(s[j])
    decreases |s| - i
  {
    if i == |s| || !IsSpace(s[i]) then i else SkipSpace(s, i + 1)
  }

  /** The first position at or after `i` that is whitespace, or the end. */
  function SkipWord(s: string, i: nat): (j: nat)
    requires i <= |s|
    ensures i <= j <= |s|
    ensures forall m | i <= m < j :: !IsSpace(s[m])
    ensures j == |s| || IsSpace(s[j])
    decreases |s| - i
  {
    if i == |s| || IsSpace(s[i]) then i else SkipWord(s, i + 1)
  }

  /** The position just after the last non-space before `j`, or 0. */
  function SkipSpaceBack(s: string, j: nat): (i: nat)
    requires j <= |s|
    ensures i <= j
    ensures forall m | i <= m < j :: IsSpace(s[m])
    ensures i == 0 || !IsSpace(s[i - 1])
  {
    if j == 0 || !IsSpace(s[j - 1]) then j else SkipSpaceBack(s, j - 1)
  }

  /** `SkipSpace` is determined by the whitespace run it stops after. */
  lemma SkipSpaceAt(s: string, i: nat, j: nat)
    requires i <= j <= |s|
    requires forall m | i <= m < j :: IsSpace(s[m])
    requires j == |s| || !IsSpace(s[j])
    ensures SkipSpace(s, i) == j
  {
  }

  lemma SkipWordAt(s: string, i: nat, j: nat)
    requires i <= j <= |s|
    requires forall m | i <= m < j :: !IsSpace(s[m])
    requires j == |s| || IsSpace(s[j])
    ensures SkipWord(s, i) == j
  {
  }

  lemma SkipSpaceBackAt(s: string, i: nat, j: nat)
    requires i <= j <= |s|
    requires forall m | i <= m < j :: IsSpace(s[m])
    requires i == 0 || !IsSpace(s[i - 1])
    ensures SkipSpaceBack(s, j) == i
  {
  }

  // ---------------------------------------------------------------------------
  // strip

  /** `strip()` with no argument. */
  function Strip(s: string): (r: string)
    ensures IsTrimmed(r)
    ensures r == [] <==> IsBlank(s)
    ensures r != [] ==> exists i, j | 0 <= i < j <= |s| :: r == s[i..j] && IsBlank(s[..i]) && IsBlank(s[j..])
  {
    var i := SkipSpace(s, 0);
    if i == |s| then []
    else
      var j := SkipSpaceBack(s, |s|);
      assert !IsSpace(s[i]);
      assert i < j;
      assert IsBlank(s[..i]) by {
        forall m | 0 <= m < i ensures IsSpace(s[..i][m]) { assert s[..i][m] == s[m]; }
      }
      assert IsBlank(s[j..]) by {
        forall m | 0 <= m < |s| - j ensures IsSpace(s[j..][m]) { assert s[j..][m] == s[j + m]; }
      }
      s[i..j]
  }

  /** A trimmed string is its own `strip`. */
  lemma StripTrimmed(s: string)
    requires IsTrimmed(s)
    ensures Strip(s) == s
  {
    if s != [] {
      SkipSpaceAt(s, 0, 0);
      SkipSpaceBackAt(s, |s|, |s|);
    }
  }

  lemma StripIdempotent(s: string)
    ensures Strip(Strip(s)) == Strip(s)
  {
    StripTrimmed(Strip(s));
  }

  /** Whitespace added at either end is exactly what `strip` removes. */
  lemma StripPadded(a: string, s: string, b: string)
    requires IsBlank(a) && IsBlank(b)
    ensures Strip(a + s + b) == Strip(s)
  {
    if IsBlank(s) {
      PaddedBlank(a, s, b);
    } else {
      StripPaddedText(a, s, b);
    }
  }

  lemma StripPaddedText(a: string, s: string, b: string)
    requires IsBlank(a) && IsBlank(b) && !IsBlank(s)
    ensures Strip(a + s + b) == Strip(s)
  {
    var i, j := SkipSpace(s, 0), SkipSpaceBack(s, |s|);
    PaddedSkip(a, s, b, i, j);
    PaddedSlice(a, s, b, i, j);
    StripAtEq(a + s + b, |a| + i, |a| + j, s[i..j]);
    StripAtEq(s, i, j, s[i..j]);
  }

  lemma StripAtEq(s: string, i: nat, j: nat, r: string)
    requires i == SkipSpace(s, 0) && i < |s| && j == SkipSpaceBack(s, |s|)
    requires i <= j && s[i..j] == r
    ensures Strip(s) == r
  {
    StripAt(s, i, j);
  }

  lemma PaddedBlank(a: string, s: string, b: string)
    requires IsBlank(a) && IsBlank(s) && IsBlank(b)
    ensures IsBlank(a + s + b)
  {
    PaddedChars(a, s, b);
    var t := a + s + b;
    forall m | 0 <= m < |t| ensures IsSpace(t[m]) {
      if m < |a| { } else if m < |a| + |s| { assert t[m] == s[m - |a|]; } else { assert t[m] == b[m - |a| - |s|]; }
    }
  }

  lemma PaddedSlice(a: string, s: string, b: string, i: nat, j: nat)
    requires i <= j <= |s|
    ensures (a + s + b)[|a| + i..|a| + j] == s[i..j]
  {
    PaddedChars(a, s, b);
  }

  /** Where the characters of `a + s + b` come from. */
  lemma PaddedChars(a: string, s: string, b: string)
    ensures forall m | 0 <= m < |a| :: (a + s + b)[m] == a[m]
    ensures forall m | 0 <= m < |s| :: (a + s + b)[|a| + m] == s[m]
    ensures forall m | 0 <= m < |b| :: (a + s + b)[|a| + |s| + m] == b[m]
  {
  }

  /** The scans that `strip` makes over a padded string land on the ends of the unpadded text. */
  lemma PaddedSkip(a: string, s: string, b: string, i: nat, j: nat)
    requires IsBlank(a) && IsBlank(b) && !IsBlank(s)
    requires i == SkipSpace(s, 0) && j == SkipSpaceBack(s, |s|)
    ensures SkipSpace(a + s + b, 0) == |a| + i
    ensures SkipSpaceBack(a + s + b, |a + s + b|) == |a| + j
  {
    var t := a + s + b;
    PaddedChars(a, s, b);
    assert i < |s|;
    assert 0 < j;
    forall m | 0 <= m < |a| + i ensures IsSpace(t[m]) {
      if m >= |a| { assert t[m] == s[m - |a|]; }
    }
    SkipSpaceAt(t, 0, |a| + i);
    forall m | |a| + j <= m < |t| ensures IsSpace(t[m]) {
      if m < |a| + |s| { assert t[m] == s[m - |a|]; } else { assert t[m] == b[m - |a| - |s|]; }
    }
    SkipSpaceBackAt(t, |a| + j, |t|);
  }

  /** `strip` keeps what lies between the two scans. */
  lemma StripAt(s: string, i: nat, j: nat)
    requires i == SkipSpace(s, 0) && i < |s| && j == SkipSpaceBack(s, |s|)
    ensures i < j && Strip(s) == s[i..j]
  {
    assert !IsSpace(s[i]);
  }

  /** Stripping and lower-casing commute. */
  lemma StripLower(s: string)
    ensures Strip(Lower(s)) == Lower(Strip(s))
  {
    var l := Lower(s);
    var i := SkipSpace(s, 0);
    forall m | 0 <= m < |s| ensures IsSpace(l[m]) <==> IsSpace(s[m]) {
      LowerKeepsSpace(s, m);
    }
    SkipSpaceAt(l, 0, i);
    if i < |s| {
      var j := SkipSpaceBack(s, |s|);
      SkipSpaceBackAt(l, j, |s|);
      LowerSlice(s, i, j);
    }
  }

  // ---------------------------------------------------------------------------
  // split

  /** The shape of a `split(maxsplit = k)` result: at most k + 1 non-empty parts,
      each starting with a non-space; all but a (k+1)-th remainder are single tokens. */
  predicate WellFormedParts(parts: seq<string>, k: nat) {
    && |parts| <= k + 1
    && (forall i | 0 <= i < |parts| :: parts[i] != [] && !IsSpace(parts[i][0]))
    && (forall i | 0 <= i < |parts| && i < k :: HasNoSpace(parts[i]))
  }

  lemma WellFormedCons(w: string, rest: seq<string>, k: nat)
    requires k > 0
    requires w != [] && !IsSpace(w[0]) && HasNoSpace(w)
    requires WellFormedParts(rest, k - 1)
    ensures WellFormedParts([w] + rest, k)
  {
    var parts := [w] + rest;
    forall i | 0 <= i < |parts|
      ensures parts[i] != [] && !IsSpace(parts[i][0])
      ensures i < k ==> HasNoSpace(parts[i])
    {
      if i > 0 { assert parts[i] == rest[i - 1]; }
    }
  }

  lemma WellFormedTail(parts: seq<string>, k: nat)
    requires WellFormedParts(parts, k) && |parts| > 1
    ensures k > 0 && WellFormedParts(parts[1..], k - 1)
  {
    var rest := parts[1..];
    forall i | 0 <= i < |rest|
      ensures rest[i] != [] && !IsSpace(rest[i][0])
      ensures i < k - 1 ==> HasNoSpace(rest[i])
    {
      assert rest[i] == parts[i + 1];
    }
  }

  /** Python's whitespace `split` with `maxsplit = k`, applied to `s[i..]`:
      runs of whitespace separate tokens and leading whitespace is skipped;
      after k tokens the rest of the string, minus its leading whitespace,
      is the last part. */
  function SplitFrom(s: string, i: nat, k: nat): seq<string>
    requires i <= |s|
    decreases |s| - i
  {
    var j := SkipSpace(s, i);
    if j == |s| then []
    else if k == 0 then [s[j..]]
    else
      var e := SkipWord(s, j);
      [s[j..e]] + SplitFrom(s, e, k - 1)
  }

  /** Every result of `SplitFrom` has the shape of a split. */
  lemma {:induction false} SplitFromShape(s: string, i: nat, k: nat)
    requires i <= |s|
    ensures WellFormedParts(SplitFrom(s, i, k), k)
    decreases |s| - i
  {
    var j := SkipSpace(s, i);
    if j < |s| && k > 0 {
      var e := SkipWord(s, j);
      SplitFromShape(s, e, k - 1);
      SplitFromShapeLink(s, i, k);
    }
  }

  lemma SplitFromShapeLink(s: string, i: nat, k: nat)
    requires i <= |s| && SkipSpace(s, i) < |s| && k > 0
    requires WellFormedParts(SplitFrom(s, SkipWord(s, SkipSpace(s, i)), k - 1), k - 1)
    ensures WellFormedParts(SplitFrom(s, i, k), k)
  {
    var j := SkipSpace(s, i);
    var e := SkipWord(s, j);
    var w := s[j..e];
    assert SplitFrom(s, i, k) == [w] + SplitFrom(s, e, k - 1);
    assert HasNoSpace(w) by {
      forall m | 0 <= m < |w| ensures !IsSpace(w[m]) { assert w[m] == s[j + m]; }
    }
    WellFormedCons(w, SplitFrom(s, e, k - 1), k);
  }

  /** A (k+1)-th part of a split is a whole suffix of the string. */
  lemma {:induction false} SplitFromLastPart(s: string, i: nat, k: nat)
    requires i <= |s| && |SplitFrom(s, i, k)| == k + 1
    ensures exists j | i <= j < |s| :: SplitFrom(s, i, k)[k] == s[j..]
    decreases |s| - i
  {
    var j := SkipSpace(s, i);
    if k == 0 {
      assert SplitFrom(s, i, k)[0] == s[j..];
    } else {
      var e := SkipWord(s, j);
      var rest := SplitFrom(s, e, k - 1);
      assert SplitFrom(s, i, k) == [s[j..e]] + rest;
      assert |rest| == k;
      SplitFromLastPart(s, e, k - 1);
      assert SplitFrom(s, i, k)[k] == rest[k - 1];
    }
  }

  function Split(s: string, k: nat): (parts: seq<string>)
    ensures WellFormedParts(parts, k)
    ensures |parts| == k + 1 ==> exists j | 0 <= j < |s| :: parts[k] == s[j..]
  {
    SplitFromShape(s, 0, k);
    if |SplitFrom(s, 0, k)| == k + 1 then
      SplitFromLastPart(s, 0, k);
      SplitFrom(s, 0, k)
    else
      SplitFrom(s, 0, k)
  }

  /** Only the text after the leading whitespace matters. */
  lemma SplitFromSkip(s: string, i: nat, k: nat)
    requires i <= |s|
    ensures SplitFrom(s, i, k) == SplitFrom(s, SkipSpace(s, i), k)
  {
    var j := SkipSpace(s, i);
    SkipSpaceAt(s, j, j);
  }

  /** Parts joined by single spaces: the simplest text `Split` turns back into them. */
  function JoinSpace(parts: seq<string>): string {
    if |parts| == 0 then []
    else if |parts| == 1 then parts[0]
    else parts[0] + " " + JoinSpace(parts[1..])
  }

  lemma JoinSpaceStart(parts: seq<string>)
    requires parts != [] && parts[0] != []
    ensures JoinSpace(parts) != [] && JoinSpace(parts)[0] == parts[0][0]
  {
  }

  lemma HeadTail<T>(xs: seq<T>)
    requires xs != []
    ensures [xs[0]] + xs[1..] == xs
  {
  }

  /** A whitespace-free token at position `i` of `s` is the first part `SplitFrom` takes. */
  lemma SplitFromToken(s: string, i: nat, p: string, k: nat)
    requires i + |p| <= |s| && s[i..i + |p|] == p
    requires p != [] && HasNoSpace(p)
    requires i + |p| == |s| || IsSpace(s[i + |p|])
    requires k > 0
    ensures SplitFrom(s, i, k) == [p] + SplitFrom(s, i + |p|, k - 1)
  {
    assert s[i] == p[0];
    SkipSpaceAt(s, i, i);
    forall m | i <= m < i + |p| ensures !IsSpace(s[m]) { assert s[m] == p[m - i]; }
    SkipWordAt(s, i, i + |p|);
  }

  /** Splitting undoes joining, wherever in a string the join sits. */
  lemma {:induction false} SplitFromJoin(s: string, i: nat, parts: seq<string>, k: nat)
    requires i <= |s| && s[i..] == JoinSpace(parts)
    requires WellFormedParts(parts, k)
    ensures SplitFrom(s, i, k) == parts
    decreases |parts|, 1
  {
    if |parts| == 0 {
      SkipSpaceAt(s, i, i);
    } else if |parts| == 1 {
      SplitFromJoinSingle(s, i, parts, k);
    } else {
      SplitFromJoinMany(s, i, parts, k);
    }
  }

  /** The inductive step of `SplitFromJoin`: the rest of the join splits back into the
      rest of the parts, and the first part goes in front. */
  lemma {:induction false} SplitFromJoinMany(s: string, i: nat, parts: seq<string>, k: nat)
    requires i <= |s| && s[i..] == JoinSpace(parts)
    requires WellFormedParts(parts, k) && |parts| > 1
    ensures SplitFrom(s, i, k) == parts
    decreases |parts|, 0
  {
    var next, rest := SplitFromJoinRest(s, i, parts, k);
    SplitFromJoin(s, next, rest, k - 1);
    SplitFromJoinLink(s, i, parts, k);
  }

  /** A single well-formed part is split back into itself. */
  lemma SplitFromJoinSingle(s: string, i: nat, parts: seq<string>, k: nat)
    requires |parts| == 1
    requires i <= |s| && s[i..] == JoinSpace(parts)
    requires WellFormedParts(parts, k)
    ensures SplitFrom(s, i, k) == parts
  {
    var p := parts[0];
    assert s[i..] == p;
    assert s[i] == p[0];
    SkipSpaceAt(s, i, i);
    if k > 0 {
      SplitFromToken(s, i, p, k);
      SkipSpaceAt(s, |s|, |s|);
      assert SplitFrom(s, i, k) == [p];
    }
  }

  /** The layout of a join of several parts from position `i` of `s`: the first part,
      one space, then the join of the rest. */
  lemma SplitFromJoinStep(s: string, i: nat, parts: seq<string>, k: nat)
    requires i <= |s| && s[i..] == JoinSpace(parts)
    requires WellFormedParts(parts, k) && |parts| > 1
    ensures i + |parts[0]| + 1 < |s|
    ensures s[i..i + |parts[0]|] == parts[0]
    ensures s[i + |parts[0]|] == ' '
    ensures !IsSpace(s[i + |parts[0]| + 1])
    ensures s[i + |parts[0]| + 1..] == JoinSpace(parts[1..])
    ensures k > 0 && WellFormedParts(parts[1..], k - 1)
    ensures parts[0] != [] && HasNoSpace(parts[0])
  {
    var p, rest := parts[0], parts[1..];
    SliceLayout(s, i, p, JoinSpace(rest));
    WellFormedTail(parts, k);
    JoinSpaceStart(rest);
    assert s[i + |p| + 1] == s[i + |p| + 1..][0];
  }

  /** Where the pieces of `a + " " + b` sit inside a string that ends with it. */
  lemma SliceLayout(s: string, i: nat, a: string, b: string)
    requires i <= |s| && s[i..] == a + " " + b
    ensures i + |a| + 1 <= |s|
    ensures s[i..i + |a|] == a
    ensures s[i + |a|] == ' '
    ensures s[i + |a| + 1..] == b
  {
    assert s[i..][|a|] == ' ';
    assert s[i..][..|a|] == a;
    assert s[i..][|a| + 1..] == b;
  }

  /** Where the join of all parts but the first begins. */
  lemma SplitFromJoinRest(s: string, i: nat, parts: seq<string>, k: nat) returns (next: nat, rest: seq<string>)
    requires i <= |s| && s[i..] == JoinSpace(parts)
    requires WellFormedParts(parts, k) && |parts| > 1
    ensures next == i + |parts[0]| + 1 && rest == parts[1..]
    ensures next <= |s| && s[next..] == JoinSpace(rest)
    ensures k > 0 && WellFormedParts(rest, k - 1)
  {
    SplitFromJoinStep(s, i, parts, k);
    next, rest := i + |parts[0]| + 1, parts[1..];
  }

  /** Given how the rest of the join splits, the whole join splits back into its parts. */
  lemma SplitFromJoinLink(s: string, i: nat, parts: seq<string>, k: nat)
    requires i <= |s| && s[i..] == JoinSpace(parts)
    requires WellFormedParts(parts, k) && |parts| > 1
    requires i + |parts[0]| + 1 <= |s|
    requires SplitFrom(s, i + |parts[0]| + 1, k - 1) == parts[1..]
    ensures SplitFrom(s, i, k) == parts
  {
    SplitFromJoinHead(s, i, parts, k);
    SplitFromTokenSpace(s, i, parts[0], parts[1..], k);
    HeadTail(parts);
  }

  /** The first part of a join of several parts, and the space after it. */
  lemma SplitFromJoinHead(s: string, i: nat, parts: seq<string>, k: nat)
    requires i <= |s| && s[i..] == JoinSpace(parts)
    requires WellFormedParts(parts, k) && |parts| > 1
    ensures k > 0 && parts[0] != [] && HasNoSpace(parts[0])
    ensures i + |parts[0]| + 1 < |s| && s[i..i + |parts[0]|] == parts[0]
    ensures s[i + |parts[0]|] == ' ' && !IsSpace(s[i + |parts[0]| + 1])
  {
    SplitFromJoinStep(s, i, parts, k);
  }

  /** A token, one space and then a non-space: the token is the first part and the split
      carries on after the space. */
  lemma SplitFromTokenSpace(s: string, i: nat, p: string, rest: seq<string>, k: nat)
    requires k > 0 && p != [] && HasNoSpace(p)
    requires i + |p| + 1 < |s| && s[i..i + |p|] == p
    requires s[i + |p|] == ' ' && !IsSpace(s[i + |p| + 1])
    requires SplitFrom(s, i + |p| + 1, k - 1) == rest
    ensures SplitFrom(s, i, k) == [p] + rest
  {
    SplitFromToken(s, i, p, k);
    SplitFromOneSpace(s, i + |p|, k - 1);
  }

  lemma SplitFromOneSpace(s: string, e: nat, k: nat)
    requires e + 1 < |s| && IsSpace(s[e]) && !IsSpace(s[e + 1])
    ensures SplitFrom(s, e, k) == SplitFrom(s, e + 1, k)
  {
    SkipSpaceAt(s, e, e + 1);
    SplitFromSkip(s, e, k);
  }

  /** Splitting undoes joining for every well-formed list of parts. */
  lemma SplitJoin(parts: seq<string>, k: nat)
    requires WellFormedParts(parts, k)
    ensures Split(JoinSpace(parts), k) == parts
  {
    SplitFromJoin(JoinSpace(parts), 0, parts, k);
  }

  /** Lower-casing moves no whitespace, so scanning stops at the same places. */
  lemma LowerSkipSpace(s: string, i: nat)
    requires i <= |s|
    ensures SkipSpace(Lower(s), i) == SkipSpace(s, i)
  {
    var j := SkipSpace(s, i);
    forall m | i <= m < j ensures IsSpace(Lower(s)[m]) { LowerKeepsSpace(s, m); }
    if j < |s| { LowerKeepsSpace(s, j); }
    SkipSpaceAt(Lower(s), i, j);
  }

  lemma LowerSkipWord(s: string, i: nat)
    requires i <= |s|
    ensures SkipWord(Lower(s), i) == SkipWord(s, i)
  {
    var j := SkipWord(s, i);
    forall m | i <= m < j ensures !IsSpace(Lower(s)[m]) { LowerKeepsSpace(s, m); }
    if j < |s| { LowerKeepsSpace(s, j); }
    SkipWordAt(Lower(s), i, j);
  }

  /** Case never changes where tokens break. */
  lemma {:induction false} SplitFromLower(s: string, i: nat, k: nat)
    requires i <= |s|
    ensures SplitFrom(Lower(s), i, k) == LowerAll(SplitFrom(s, i, k))
    decreases |s| - i, 1
  {
    var j := SkipSpace(s, i);
    LowerSkipSpace(s, i);
    if j < |s| {
      if k == 0 {
        SplitFromLowerLast(s, i);
      } else {
        var e := FirstTokenEnd(s, i);
        SplitFromLowerMany(s, i, k, e);
      }
    }
  }

  /** With no splits left, the lower-cased remainder is the remainder lower-cased. */
  lemma SplitFromLowerLast(s: string, i: nat)
    requires i <= |s| && SkipSpace(s, i) < |s|
    ensures SplitFrom(Lower(s), i, 0) == LowerAll(SplitFrom(s, i, 0))
  {
    var l, j := Lower(s), SkipSpace(s, i);
    LowerSkipSpace(s, i);
    LowerSlice(s, j, |s|);
    assert s[j..|s|] == s[j..] && l[j..|s|] == l[j..];
    assert SplitFrom(s, i, 0) == [s[j..]];
    assert SplitFrom(l, i, 0) == [l[j..]];
  }

  /** The inductive step of `SplitFromLower`: one token, then the rest. */
  lemma {:induction false} SplitFromLowerMany(s: string, i: nat, k: nat, e: nat)
    requires i <= |s| && SkipSpace(s, i) < |s| && k > 0
    requires e == SkipWord(s, SkipSpace(s, i)) && i < e <= |s|
    ensures SplitFrom(Lower(s), i, k) == LowerAll(SplitFrom(s, i, k))
    decreases |s| - i, 0
  {
    SplitFromLower(s, e, k - 1);
    SplitFromLowerLink(s, i, k, e, SplitFrom(Lower(s), e, k - 1), LowerAll(SplitFrom(s, e, k - 1)));
  }

  lemma FirstTokenEnd(s: string, i: nat) returns (e: nat)
    requires i <= |s| && SkipSpace(s, i) < |s|
    ensures e == SkipWord(s, SkipSpace(s, i)) && i < e <= |s|
  {
    var j := SkipSpace(s, i);
    e := SkipWord(s, j);
    assert !IsSpace(s[j]);
  }

  /** Given the rest of the string splits case-blind, so does the whole. */
  lemma SplitFromLowerLink(s: string, i: nat, k: nat, e: nat, later: seq<string>, lowered: seq<string>)
    requires i <= |s| && SkipSpace(s, i) < |s| && k > 0
    requires e == SkipWord(s, SkipSpace(s, i))
    requires later == SplitFrom(Lower(s), e, k - 1) && lowered == LowerAll(SplitFrom(s, e, k - 1))
    requires later == lowered
    ensures SplitFrom(Lower(s), i, k) == LowerAll(SplitFrom(s, i, k))
  {
    var l, j := Lower(s), SkipSpace(s, i);
    LowerSkipSpace(s, i);
    LowerSkipWord(s, j);
    LowerSlice(s, j, e);
    assert SplitFrom(s, i, k) == [s[j..e]] + SplitFrom(s, e, k - 1);
    assert SplitFrom(l, i, k) == [l[j..e]] + later;
    LowerAllCons(s[j..e], SplitFrom(s, e, k - 1));
  }

  /** Splitting commutes with lower-casing. */
  lemma SplitLower(s: string, k: nat)
    ensures Split(Lower(s), k) == LowerAll(Split(s, k))
  {
    SplitFromLower(s, 0, k);
  }

  // ---------------------------------------------------------------------------
  // What split cuts away

  /** Gaps and parts taken in turn: `gaps[0] + parts[0] + gaps[1] + ... + parts[n-1] + gaps[n]`. */
  function Interleave(gaps: seq<string>, parts: seq<string>): string
    requires |gaps| == |parts| + 1
    decreases |parts|
  {
    if parts == [] then gaps[0] else gaps[0] + parts[0] + Interleave(gaps[1..], parts[1..])
  }

  /** The gaps a split leaves between its parts: whitespace only, at least one character
      between two parts, and nothing after a (k+1)-th part, which keeps the rest of the line. */
  predicate SplitGaps(gaps: seq<string>, parts: seq<string>, k: nat) {
    && |gaps| == |parts| + 1
    && (forall g | 0 <= g < |gaps| :: IsBlank(gaps[g]))
    && (forall g | 0 < g < |parts| :: gaps[g] != [])
    && (|parts| == k + 1 ==> gaps[|parts|] == [])
  }

  /** `split` only removes whitespace: the string is its parts with runs of whitespace
      between them. Together with `WellFormedParts` this pins the parts down. */
  lemma SplitCoversInput(s: string, k: nat) returns (gaps: seq<string>)
    ensures SplitGaps(gaps, Split(s, k), k)
    ensures s == Interleave(gaps, Split(s, k))
  {
    gaps := SplitFromGaps(s, 0, k);
  }

  lemma {:induction false} SplitFromGaps(s: string, i: nat, k: nat) returns (gaps: seq<string>)
    requires i <= |s|
    ensures SplitGaps(gaps, SplitFrom(s, i, k), k)
    ensures gaps[0] == s[i..SkipSpace(s, i)]
    ensures s[i..] == Interleave(gaps, SplitFrom(s, i, k))
    decreases |s| - i
  {
    if SkipSpace(s, i) == |s| || k == 0 {
      gaps := SplitFromGapsBase(s, i, k);
    } else {
      var e := SkipWord(s, SkipSpace(s, i));
      var rest := SplitFromGaps(s, e, k - 1);
      gaps := [s[i..SkipSpace(s, i)]] + rest;
      SplitFromGapsLink(s, i, k, rest);
    }
  }

  /** The gaps when nothing follows the leading whitespace, or when no more cuts are made. */
  lemma SplitFromGapsBase(s: string, i: nat, k: nat) returns (gaps: seq<string>)
    requires i <= |s| && (SkipSpace(s, i) == |s| || k == 0)
    ensures SplitGaps(gaps, SplitFrom(s, i, k), k)
    ensures gaps[0] == s[i..SkipSpace(s, i)]
    ensures s[i..] == Interleave(gaps, SplitFrom(s, i, k))
  {
    var j := SkipSpace(s, i);
    BlankRun(s, i, j);
    if j == |s| {
      gaps := [s[i..]];
    } else {
      gaps := [s[i..j], []];
      assert s[i..] == s[i..j] + s[j..] + [];
    }
  }

  lemma BlankRun(s: string, i: nat, j: nat)
    requires i <= j <= |s|
    requires forall m | i <= m < j :: IsSpace(s[m])
    ensures IsBlank(s[i..j])
  {
    forall m | 0 <= m < j - i ensures IsSpace(s[i..j][m]) { assert s[i..j][m] == s[i + m]; }
  }

  /** The step of `SplitFromGaps` past one token. */
  lemma SplitFromGapsLink(s: string, i: nat, k: nat, rest: seq<string>)
    requires i <= |s| && k > 0 && SkipSpace(s, i) < |s|
    requires var e := SkipWord(s, SkipSpace(s, i));
      && SplitGaps(rest, SplitFrom(s, e, k - 1), k - 1)
      && rest[0] == s[e..SkipSpace(s, e)]
      && s[e..] == Interleave(rest, SplitFrom(s, e, k - 1))
    ensures var gaps := [s[i..SkipSpace(s, i)]] + rest;
      && SplitGaps(gaps, SplitFrom(s, i, k), k)
      && s[i..] == Interleave(gaps, SplitFrom(s, i, k))
  {
    var j, e := SplitFromTokenAt(s, i, k);
    var later := SplitFrom(s, e, k - 1);
    BlankRun(s, i, j);
    NextGapNonEmpty(s, e, k - 1);
    GapsCons(s[i..j], rest, s[j..e], later, k);
    SliceThree(s, i, j, e);
  }

  /** Where the first token of `SplitFrom(s, i, k)` lies, when there is one and `k > 0`. */
  lemma SplitFromTokenAt(s: string, i: nat, k: nat) returns (j: nat, e: nat)
    requires i <= |s| && k > 0 && SkipSpace(s, i) < |s|
    ensures j == SkipSpace(s, i) && e == SkipWord(s, j) && i <= j < e <= |s|
    ensures e == |s| || IsSpace(s[e])
    ensures SplitFrom(s, i, k) == [s[j..e]] + SplitFrom(s, e, k - 1)
  {
    j := SkipSpace(s, i);
    e := SkipWord(s, j);
  }

  /** After a token, a further part is preceded by at least one whitespace character. */
  lemma NextGapNonEmpty(s: string, e: nat, k: nat)
    requires e <= |s| && (e == |s| || IsSpace(s[e]))
    ensures SplitFrom(s, e, k) != [] ==> s[e..SkipSpace(s, e)] != []
  {
  }

  lemma SliceThree(s: string, i: nat, j: nat, e: nat)
    requires i <= j <= e <= |s|
    ensures s[i..] == s[i..j] + s[j..e] + s[e..]
  {
  }

  /** One more token, and the whitespace before it, in front of a split. */
  lemma GapsCons(gap: string, rest: seq<string>, w: string, later: seq<string>, k: nat)
    requires k > 0 && IsBlank(gap) && SplitGaps(rest, later, k - 1)
    requires later != [] ==> rest[0] != []
    ensures SplitGaps([gap] + rest, [w] + later, k)
    ensures Interleave([gap] + rest, [w] + later) == gap + w + Interleave(rest, later)
  {
    var gaps, parts := [gap] + rest, [w] + later;
    forall g | 0 <= g < |gaps| ensures IsBlank(gaps[g]) {
      if g > 0 { assert gaps[g] == rest[g - 1]; }
    }
    forall g | 0 < g < |parts| ensures gaps[g] != [] {
      assert gaps[g] == rest[g - 1];
    }
    assert gaps[1..] == rest && parts[1..] == later;
  }
}
